=== FILE: README.md ===
# gstreamer-pipeline-evaluator panels in Dafny

This project models the four interactive panels of the GStreamer pipeline evaluator front end. None of the panels parses or evaluates a pipeline. Each one is a mock driven by timers. Behind each mock sits a small state machine:

- **Agent evaluation panel** (`agent_panel.dfy`, module `AgentPanel`)
  - Four evaluation agents.
  - A single run moves one agent up by 10 per tick, capped at 100.
  - "Run all" steps every agent in list order through 0, 5, …, 100.
  - On completion an agent gets a score in 75..94 and the feedback message for its id.
  - Reset restores the initial list.
- **Pipeline evaluator** (`pipeline_evaluator.dfy`, module `EvaluatorPanel`)
  - A text area holds the pipeline description.
  - Progress goes up by 5 per tick.
  - At 100 the panel delivers one fixed result, whatever the text.
  - The analysis view splits the text into lines and wraps each line that an issue points at in a class-tagged `<span>`.
- **Pipeline visualizer** (`pipeline_visualizer.dfy`, module `VisualizerPanel`)
  - A fixed six-element pipeline.
  - A run/stop toggle.
  - While running, an animation tick moves the highlighted element along, wrapping round to the first.
- **Evaluation metrics** (`evaluation_metrics.dfy`, module `MetricsPanel`)
  - A seven-sample time series.
  - A refresh ticker slides the window by one sample per firing.
  - The ticker exists exactly while the time-series tab is shown.
  - The axis shows every other sample's label.

How the code is laid out:

- `types.dfy` holds the shared record types.
- `js_strings.dfy` models the JavaScript string operations the panels use: `split`, `join`, `trim`, number formatting in template literals, and `Number.parseInt`.
- Each panel is a `class` whose fields are the component's `useState` variables.
- Each timer firing is a method: `FireTicker`, `Tick`, `DeliverResult`, `LoadingDone` or `RefreshTick`.
- Every `Math.random()` draw is a parameter restricted to the range it can take.
- The updaters the code passes to the state setters are pure functions. Properties about them are proved as their contracts and as lemmas.

## Model

Source paths are relative to the repository root. `agent-evaluation-panel.tsx`, `pipeline-evaluator.tsx`, `pipeline-visualizer.tsx` and `evaluation-metrics.tsx` live under `gstreamer-pipeline-evaluator/components/`.

| member | source | states |
|---|---|---|
| JsStrings.Join | gstreamer-pipeline-evaluator/components/pipeline-evaluator.tsx:97 | `parts.join("\n")`: no parts give the empty string and one part gives itself; otherwise the text starts with the first part, followed by the separator. Splitting the join of separator-free parts gives the parts back (`SplitJoin`) |
| JsStrings.Split | gstreamer-pipeline-evaluator/components/pipeline-evaluator.tsx:85 | `split("\n")` yields at least one piece; no piece contains the separator; joining the pieces gives the text back |
| JsStrings.SplitJoin | gstreamer-pipeline-evaluator/components/pipeline-evaluator.tsx:85-97 | round trip: joining separator-free pieces and splitting again returns the same pieces |
| JsStrings.Trim | gstreamer-pipeline-evaluator/components/pipeline-evaluator.tsx:121 | `trim()` is empty exactly when every character is white space; a non-empty result starts and ends with a character that is not white space |
| JsStrings.TrimIsSlice | gstreamer-pipeline-evaluator/components/pipeline-evaluator.tsx:121 | `trim()` is the slice of the text that follows the leading white space and is followed by white space only: it removes exactly the white space at both ends and keeps everything else, in order |
| JsStrings.NatToString | gstreamer-pipeline-evaluator/components/evaluation-metrics.tsx:49 | a number rendered in a template literal is a non-empty run of decimal digits |
| JsStrings.ParseLeadingInt | gstreamer-pipeline-evaluator/components/evaluation-metrics.tsx:49 | `Number.parseInt` gives NaN exactly when the text does not start with a digit |
| JsStrings.ParseFormatted | gstreamer-pipeline-evaluator/components/evaluation-metrics.tsx:49 | round trip: parsing `${n}` followed by a suffix that does not start with a digit gives back `n` |
| AgentPanel.InitialAgentIds | gstreamer-pipeline-evaluator/components/agent-evaluation-panel.tsx:9-46 | the initial agents carry the ids 1, 2, 3, 4 in list order |
| AgentPanel.StartAgents | gstreamer-pipeline-evaluator/components/agent-evaluation-panel.tsx:70-72 | only the chosen agent changes; it becomes in-progress at 0 and keeps its score and feedback; the agents keep their identities; every agent invariant is preserved |
| AgentPanel.TickAgents | gstreamer-pipeline-evaluator/components/agent-evaluation-panel.tsx:77-90 | only the chosen agent changes, and only while it is in progress. Its progress becomes min(progress + 10, 100), so it never decreases and never passes 100. It is completed exactly at 100, and exactly then has a score in 75..94 and the feedback of its id. Every agent invariant is preserved |
| AgentPanel.SetRunProgress | gstreamer-pipeline-evaluator/components/agent-evaluation-panel.tsx:125-137 | the run-all step updater: only the chosen agent changes; it gets progress `p`; it is completed exactly when `p` is 100, and then carries score draw + 75 and its feedback; otherwise score and feedback are null |
| AgentPanel.FindAgent | gstreamer-pipeline-evaluator/components/agent-evaluation-panel.tsx:93 | `find` returns nothing exactly when no agent has the id; otherwise the agent at the first position holding that id |
| AgentPanel.CompletedCount | gstreamer-pipeline-evaluator/components/agent-evaluation-panel.tsx:165 | the count shown is the number of positions holding a completed agent; it equals the list length exactly when all are completed, and is 0 exactly when none is |
| AgentPanel.InSequenceAtMostOneRunning | gstreamer-pipeline-evaluator/components/agent-evaluation-panel.tsx:113-139 | in a list of the run-all shape (an agent has left pending only when all agents before it are completed) at most one agent is in progress |
| AgentPanel.TicksFromMultipleOfTen | gstreamer-pipeline-evaluator/components/agent-evaluation-panel.tsx:80-84 | from progress 10m, k more ticks give progress 10(m + k), and the agent is completed exactly when m + k = 10 |
| AgentPanel.TenTicksToComplete | gstreamer-pipeline-evaluator/components/agent-evaluation-panel.tsx:76-101 | a single run started at 0 is at 10k after k ticks and is completed after exactly ten |
| AgentPanel.RunAllStart | gstreamer-pipeline-evaluator/components/agent-evaluation-panel.tsx:117-119 | starting agent `i` when all agents before it are completed gives the list in which agent `i` alone is in progress |
| AgentPanel.RunAllAdvance | gstreamer-pipeline-evaluator/components/agent-evaluation-panel.tsx:125-137 | one awaited step of run-all moves agent `i` to progress `p` and changes nothing else |
| AgentPanel.RunAllSnapshotInSequence | gstreamer-pipeline-evaluator/components/agent-evaluation-panel.tsx:113-139 | every list run-all passes through has the run-all shape |
| AgentPanel.RunAllFinishedValid | gstreamer-pipeline-evaluator/components/agent-evaluation-panel.tsx:113-139 | the list run-all ends with keeps the agents' identities and every agent invariant |
| AgentPanel.RunAllTraceAt | gstreamer-pipeline-evaluator/components/agent-evaluation-panel.tsx:113-139 | run-all walks the agents in array order: its trace holds 22 lists per agent, and the lists of agent k are agent k just started, then agent k at progress 0, 5, …, 100, with the agents before it completed and those after it untouched |
| AgentPanel.RunAllTraceInSequence | gstreamer-pipeline-evaluator/components/agent-evaluation-panel.tsx:113-139 | every list of the run-all trace has the run-all shape, so at most one agent is in progress in it |
| AgentPanel.RunAllFinished | gstreamer-pipeline-evaluator/components/agent-evaluation-panel.tsx:113-139 | at the end of run-all every agent is completed at 100, agent j with score draws[j] + 75 and the j-th feedback message; the completed count is 4 |
| AgentPanel.AgentEvaluationPanel.constructor | gstreamer-pipeline-evaluator/components/agent-evaluation-panel.tsx:56-58 | the panel starts with the initial agents, no run-all, no current agent and no live interval |
| AgentPanel.AgentEvaluationPanel.ResetAgents | gstreamer-pipeline-evaluator/components/agent-evaluation-panel.tsx:61-64 | reset restores the initial list (all pending, progress 0, no score, no feedback) and clears the current agent; the run-all flag and the live intervals are untouched |
| AgentPanel.AgentEvaluationPanel.EnabledRunStartsFresh | gstreamer-pipeline-evaluator/components/agent-evaluation-panel.tsx:218-225 | a click on an enabled "Run Evaluation" button (pending agent, no run-all, no current agent) is not swallowed by the run-all guard, starts that agent afresh (in progress at 0, no score, no feedback) and changes no other agent |
| AgentPanel.AgentEvaluationPanel.RunSingleAgent | gstreamer-pipeline-evaluator/components/agent-evaluation-panel.tsx:67-73 | does nothing while run-all is in progress; otherwise it applies the start updater, makes the agent current and adds a live interval for it; an agent whose button was enabled is then in progress at 0 with no score and no feedback |
| AgentPanel.AgentEvaluationPanel.FireTicker | gstreamer-pipeline-evaluator/components/agent-evaluation-panel.tsx:76-101 | an interval firing applies the tick updater for its agent; when that agent is then completed, the interval is cleared and the current agent becomes null; otherwise nothing else changes |
| AgentPanel.AgentEvaluationPanel.RunAllEvaluations | gstreamer-pipeline-evaluator/components/agent-evaluation-panel.tsx:107-146 | after run-all all four agents are completed at 100, agent j with score draws[j] + 75 and the j-th feedback; no agent is current and run-all is over; the lists it goes through are exactly the run-all trace, each of the run-all shape |
| AgentPanel.AgentEvaluationPanel.RunAgentsInSequence | gstreamer-pipeline-evaluator/components/agent-evaluation-panel.tsx:112-143 | the outer loop goes through exactly the lists of the run-all trace (agents in list order, each started and then stepped), and ends with every agent finished, no current agent and the run-all flag off |
| AgentPanel.AgentEvaluationPanel.RunAgentSteps | gstreamer-pipeline-evaluator/components/agent-evaluation-panel.tsx:122-138 | the inner loop goes through exactly the lists with agent `i` at progress 0, 5, …, 100 (21 steps), and leaves agent `i` finished |
| EvaluatorPanel.StepLabels | gstreamer-pipeline-evaluator/components/pipeline-evaluator.tsx:149-152 | of the four guarded captions exactly one is shown for every progress value |
| EvaluatorPanel.StepLabelsAdvance | gstreamer-pipeline-evaluator/components/pipeline-evaluator.tsx:149-152 | the caption only moves forward as progress grows, from parsing at 0 to generating recommendations at 100 |
| EvaluatorPanel.FirstIssueAt | gstreamer-pipeline-evaluator/components/pipeline-evaluator.tsx:88 | `find` stops at the first issue on the line: no earlier issue is on it, and the one it stops at is |
| EvaluatorPanel.IssueForLine | gstreamer-pipeline-evaluator/components/pipeline-evaluator.tsx:88 | no issue is found exactly when no issue points at the line; otherwise the issue found is the one at the first position pointing at the line |
| EvaluatorPanel.HighlightPipeline | gstreamer-pipeline-evaluator/components/pipeline-evaluator.tsx:82-83 | with no result the view is the text unchanged |
| EvaluatorPanel.HighlightKeepsLines | gstreamer-pipeline-evaluator/components/pipeline-evaluator.tsx:85-97 | with a result the view has as many lines as the text; a line no issue points at is unchanged; a line an issue points at is wrapped in a span with class `highlight-warning` exactly when the first issue on it is a warning, `highlight-info` otherwise |
| EvaluatorPanel.FixedEvaluationLines | gstreamer-pipeline-evaluator/components/pipeline-evaluator.tsx:50-71 | the fixed result marks line 3 as a warning and line 5 as information, and no other line |
| EvaluatorPanel.PipelineEvaluator.constructor | gstreamer-pipeline-evaluator/components/pipeline-evaluator.tsx:22-26 | the panel starts with the sample text, no result, not evaluating, progress 0, on the pipeline tab |
| EvaluatorPanel.PipelineEvaluator.EvaluateEnabled | gstreamer-pipeline-evaluator/components/pipeline-evaluator.tsx:121 | the evaluate button is enabled exactly when no evaluation runs and the text holds a character that is not white space |
| EvaluatorPanel.PipelineEvaluator.SetPipelineDefinition | gstreamer-pipeline-evaluator/components/pipeline-evaluator.tsx:113 | editing replaces the text and nothing else |
| EvaluatorPanel.PipelineEvaluator.SelectTab | gstreamer-pipeline-evaluator/components/pipeline-evaluator.tsx:102-105 | switching tabs; the results tab is reachable only with a result or a running evaluation |
| EvaluatorPanel.PipelineEvaluator.ResetEvaluation | gstreamer-pipeline-evaluator/components/pipeline-evaluator.tsx:29-33 | reset clears the result, sets progress to 0 and selects the pipeline tab, keeping the text |
| EvaluatorPanel.PipelineEvaluator.RunEvaluation | gstreamer-pipeline-evaluator/components/pipeline-evaluator.tsx:36-42 | an evaluation starts from a reset state: evaluating, progress 0, no result, the progress interval live |
| EvaluatorPanel.PipelineEvaluator.Tick | gstreamer-pipeline-evaluator/components/pipeline-evaluator.tsx:42-47 | each tick adds 5; the interval stops at the first value of at least 100, which is the 20th tick, and the delivery is then scheduled; progress stays a multiple of 5 in 0..100 |
| EvaluatorPanel.PipelineEvaluator.DeliverResult | gstreamer-pipeline-evaluator/components/pipeline-evaluator.tsx:49-74 | the delivered result is always the fixed record (valid, score 87, two issues, three suggestions), whatever the text; evaluation is over and the results tab is shown |
| EvaluatorPanel.PipelineEvaluator.AnalysisView | gstreamer-pipeline-evaluator/components/pipeline-evaluator.tsx:82-83 | with no result the analysis view is the current text |
| VisualizerPanel.SamplePipelineChained | gstreamer-pipeline-evaluator/components/pipeline-visualizer.tsx:9-26 | the sample has six elements and five links, link i going from element i's id to element i + 1's id |
| VisualizerPanel.SamplePipelineDistinctIds | gstreamer-pipeline-evaluator/components/pipeline-visualizer.tsx:11-18 | no two elements of the sample share an id |
| VisualizerPanel.SamplePipelineIsSimplePath | gstreamer-pipeline-evaluator/components/pipeline-visualizer.tsx:9-26 | the sample's links form a simple path through its six elements |
| VisualizerPanel.NextActive | gstreamer-pipeline-evaluator/components/pipeline-visualizer.tsx:49-52 | the interval's updater always yields an element index in [0, n) |
| VisualizerPanel.ActiveAfterTicks | gstreamer-pipeline-evaluator/components/pipeline-visualizer.tsx:48-53 | after k ticks from a fresh start the active element is none for k = 0 and (k - 1) mod n otherwise |
| VisualizerPanel.ActiveCycles | gstreamer-pipeline-evaluator/components/pipeline-visualizer.tsx:48-53 | the animation has no end state: every tick yields an element, and n ticks later the same element is active again |
| VisualizerPanel.DotPositions | gstreamer-pipeline-evaluator/components/pipeline-visualizer.tsx:93-98 | at most one arrow carries the dot, never the one after the last element, none while stopped, and exactly the active element's arrow when that element is not the last |
| VisualizerPanel.PipelineVisualizer.constructor | gstreamer-pipeline-evaluator/components/pipeline-visualizer.tsx:29-31 | the panel starts with the sample pipeline, stopped, with no active element |
| VisualizerPanel.PipelineVisualizer.TogglePipeline | gstreamer-pipeline-evaluator/components/pipeline-visualizer.tsx:33-46 | the toggle flips the running flag; starting and stopping both leave no active element, and a stopped panel never has one |
| VisualizerPanel.PipelineVisualizer.Tick | gstreamer-pipeline-evaluator/components/pipeline-visualizer.tsx:48-53 | a tick applies the updater; after the k-th tick since the start the active element is (k - 1) mod n |
| VisualizerPanel.PipelineVisualizer.Dots | gstreamer-pipeline-evaluator/components/pipeline-visualizer.tsx:93-98 | the panel shows at most one dot, never after the last element and none while stopped |
| MetricsPanel.NextLabel | gstreamer-pipeline-evaluator/components/evaluation-metrics.tsx:49 | round trip: after any label `${t}s` the next label is `${t + 10}s` |
| MetricsPanel.NextLabelOfLabel | gstreamer-pipeline-evaluator/components/evaluation-metrics.tsx:49 | the label after `${t}s` is `${t + 10}s` |
| MetricsPanel.SlideWindow | gstreamer-pipeline-evaluator/components/evaluation-metrics.tsx:47-54 | the window keeps its length; new[0..n-2] is old[1..n-1]; the appended sample has the next label, cpu in 25..44 and memory in 35..49 |
| MetricsPanel.SlideWindowShape | gstreamer-pipeline-evaluator/components/evaluation-metrics.tsx:53 | a slide is the old window without its first sample, plus exactly one sample |
| MetricsPanel.InitialTimeSeriesLabels | gstreamer-pipeline-evaluator/components/evaluation-metrics.tsx:17-25 | the sample window's labels are `${10k}s` for k = 0..6 |
| MetricsPanel.InitialTimeSeriesWellSpaced | gstreamer-pipeline-evaluator/components/evaluation-metrics.tsx:17-25 | the sample window has seven samples with labels ten seconds apart, starting at 0s |
| MetricsPanel.InitialWindowValid | gstreamer-pipeline-evaluator/components/evaluation-metrics.tsx:17-25 | the sample window has seven samples, labelled ten seconds apart from 0s, all values percentages |
| MetricsPanel.SlideWindowKeepsSpacing | gstreamer-pipeline-evaluator/components/evaluation-metrics.tsx:47-54 | sliding keeps consecutive labels ten seconds apart, now counting from the old second sample |
| MetricsPanel.SlideWindowKeepsPercentages | gstreamer-pipeline-evaluator/components/evaluation-metrics.tsx:50-53 | sliding keeps every cpu and memory value in 0..100 |
| MetricsPanel.EvenIndexed | gstreamer-pipeline-evaluator/components/evaluation-metrics.tsx:143-144 | the even-index filter keeps exactly the items at even positions, in order: ⌈n/2⌉ of them |
| MetricsPanel.AxisLabels | gstreamer-pipeline-evaluator/components/evaluation-metrics.tsx:143-147 | the axis shows ⌈n/2⌉ labels, label j being the time of sample 2j |
| MetricsPanel.AxisLabelsOfWindow | gstreamer-pipeline-evaluator/components/evaluation-metrics.tsx:143-147 | on a seven-sample window starting at t seconds the axis shows four labels, 0, 20, 40 and 60 seconds after t |
| MetricsPanel.EvaluationMetrics.constructor | gstreamer-pipeline-evaluator/components/evaluation-metrics.tsx:27-41 | the panel mounts on the performance tab, loading, with the sample data and window, the loading delay pending and no refresh ticker |
| MetricsPanel.EvaluationMetrics.LoadingDone | gstreamer-pipeline-evaluator/components/evaluation-metrics.tsx:36-38 | the loading delay fires: loading ends and nothing else changes |
| MetricsPanel.EvaluationMetrics.SelectTab | gstreamer-pipeline-evaluator/components/evaluation-metrics.tsx:44-65 | a refresh ticker exists exactly while the time-series tab is shown. Entering that tab creates one fresh ticker. Leaving it clears the ticker and sets the handle to null. Re-selecting the same tab changes nothing. The time-series window and its start time are unchanged, and a new handle is drawn only when a ticker is created |
| MetricsPanel.EvaluationMetrics.RefreshTick | gstreamer-pipeline-evaluator/components/evaluation-metrics.tsx:46-54 | only a live ticker fires, and only on the time-series tab; it slides the window, which stays seven samples, ten seconds apart and percentages. The ticker, the tab, the loading state and the handle counter are unchanged |
| MetricsPanel.EvaluationMetrics.Unmount | gstreamer-pipeline-evaluator/components/evaluation-metrics.tsx:36-64 | unmounting clears the loading delay and the ticker, so no timer of the panel fires afterwards |
| MetricsPanel.EvaluationMetrics.XAxisLabels | gstreamer-pipeline-evaluator/components/evaluation-metrics.tsx:141-147 | the axis of the live window always shows four labels, 20 seconds apart, from the window's first sample |

## Left out

- Timer delays: the 300 ms, 100 ms, 500 ms, 800 ms, 1 s and 2 s delays are not modelled. A firing is a method call that can come at any time its timer is live. In run-all, each `await` of a delay is one loop step.
- Interleaving of run-all with stale single-run intervals is not modelled. `RunAllEvaluations` is one atomic method, so no other handler ever sees `isRunningAll` true, and `FireTicker` is not called during a run-all. Run-all's button is gated only on `isRunningAll` (agent-evaluation-panel.tsx:171).
- AgentPanel.AgentEvaluationPanel.ResetAgents: live single-run intervals are kept. The source does not cancel them either (`runSingleAgent` returns its clean-up function to an `onClick` handler, which drops it). So the model does not claim "at most one single run at a time".
- AgentPanel.AgentEvaluationPanel.RunSingleAgent: the model accepts any agent id. The panel offers the button for a pending agent only while `isRunningAll` is false and `currentAgent` is null (agent-evaluation-panel.tsx:225). An interval whose agent is already completed sets `currentAgent` to null even while another single run is going on (agent-evaluation-panel.tsx:93-97). So the guard does not rule out two single runs at once, and the model does not claim it does.
- EvaluatorPanel.PipelineEvaluator.RunEvaluation: requires only that no evaluation runs. It does not require the button's whitespace guard, which is stated separately by `EvaluateEnabled`.
- `Math.random()` is not modelled. Each draw is a parameter in the range `Math.floor(Math.random() * k)` can produce.
- Floating-point chart geometry is not modelled: `maxValue * 1.2`, the polyline coordinates and the bar heights. Neither are the score bar widths.
- JSX, CSS classes, icons and the UI components are not modelled, beyond the conditions that decide what is shown: step captions, connector dots, axis labels, button guards and the completed count.
- HTML rendering through `dangerouslySetInnerHTML` is not modelled. Lines are not HTML-escaped, and the analysis view is treated as a plain string.
- gstreamer-pipeline-evaluator/app/page.tsx is not part of this model; it is page layout only.
- JsStrings.NatToString / JsStrings.ParseFormatted / MetricsPanel.NextLabel: numbers are modelled as unbounded naturals. This matches JavaScript's double-precision numbers only for integers below 2^53. Above that, `Number.parseInt(prev.time) + 10` is no longer exact. From 1e21 on, `${n}` renders in exponent form ("1e+21"). Their contracts about every number therefore describe JavaScript only for the labels the panel can actually reach, which stay far below those bounds.
- JsStrings.ParseLeadingInt models `Number.parseInt` only for text that starts with its digits. It does not cover leading white space, a sign, or a `0x` prefix. The labels the panel parses are always of the form `${n}s`.
- JsStrings.IsJsWhitespace lists the white space and line terminator characters `trim()` removes as fixed code points. There is no Unicode database behind it.
- MetricsPanel.SlideWindow requires a non-empty window. In JavaScript an empty window would throw on `prev[prev.length - 1].time`, and the window is never empty.
- MetricsPanel.EvaluationMetrics: timer handles are modelled as fresh natural numbers, and the loading timer as a flag. `currentData` is never changed by the source, so it is a constant.
- Types: `lib/types.ts` declares `EvaluationAgent` without the `progress` field that the agent panel relies on (lib/types.ts:33-40 against agent-evaluation-panel.tsx:15). The model's `Agent` has `progress`, following the panel. `null` score and feedback are `None`.
- `AgentStatus.Failed` and `IssueType.Error` exist in the types, but the panels never produce them. `AgentValid` states that `Failed` never occurs.

=== FILE: agent_panel.dfy ===
/** The agent evaluation panel: four fake agents, each run through
    pending -> in-progress -> completed by timer ticks, one at a time
    (single run, +10 per tick) or all of them in array order (run-all,
    +5 per awaited step). Random scores are inputs `draw` in 0..19 that
    stand for `Math.floor(Math.random() * 20)`. */
module AgentPanel {
  import opened Types

  /** Lowest score an agent can get; the draw adds 0..19 to it. */
  const ScoreBase := 75
  const ScoreSpread := 20
  /** Progress added by one tick of a single run. */
  const SingleStep := 10
  /** Progress added by one awaited step of run-all. */
  const SequenceStep := 5

  const InitialAgents: seq<Agent> := [
    Agent(1, "Performance Evaluator", "Evaluates pipeline performance metrics", Pending, 0, None, None),
    Agent(2, "Correctness Validator", "Validates pipeline output correctness", Pending, 0, None, None),
    Agent(3, "Resource Optimizer", "Suggests optimizations for resource usage", Pending, 0, None, None),
    Agent(4, "Edge Compatibility Checker", "Checks compatibility with edge devices", Pending, 0, None, None)
  ]

  const FeedbackMessages: seq<string> := [
    "Pipeline shows good performance characteristics with acceptable CPU and memory usage. Latency is within acceptable range for real-time processing.",
    "Pipeline correctly processes the video stream with proper element connections. All format conversions are handled appropriately.",
    "Resource usage is optimized, but consider adding queue elements between processing stages for better performance on multi-core systems.",
    "Pipeline is compatible with most edge devices, but hardware acceleration could be utilized more effectively on supported platforms."
  ]

  /** A value `Math.floor(Math.random() * 20)` can take. */
  predicate ValidDraw(draw: int)
  {
    0 <= draw < ScoreSpread
  }

  function Min(a: int, b: int): int
  {
    if a < b then a else b
  }

  /** `feedbackMessages[id - 1]`: present exactly for the ids 1..4 of the
      agent list, and then the message at position id - 1. */
  function FeedbackFor(id: int): (f: Option<string>)
    ensures f.Some? <==> 1 <= id <= 4
    ensures f.Some? ==> f.value == FeedbackMessages[id - 1]
  {
    if 1 <= id <= |FeedbackMessages| then Some(FeedbackMessages[id - 1]) else None
  }

  /** Same agent: the fields no update ever touches are equal. */
  predicate SameIdentity(a: Agent, b: Agent)
  {
    a.id == b.id && a.name == b.name && a.description == b.description
  }

  /** What every agent of the panel satisfies: progress in 0..100, a pending
      agent is untouched, an in-progress agent is below 100, a completed one
      is at 100 with a score in 75..94 and its own feedback, and `Failed`
      never occurs. */
  predicate AgentValid(a: Agent)
  {
    0 <= a.progress <= 100 && a.status != Failed &&
    (a.status == Pending ==> a.progress == 0 && a.score == None && a.feedback == None) &&
    (a.status == InProgress ==> a.progress < 100) &&
    (a.status == Completed ==>
      a.progress == 100 && a.score.Some? &&
      ScoreBase <= a.score.value < ScoreBase + ScoreSpread &&
      a.feedback == FeedbackFor(a.id))
  }

  predicate AllValid(agents: seq<Agent>)
  {
    forall j :: 0 <= j < |agents| ==> AgentValid(agents[j])
  }

  /** The agent list keeps the initial agents' identities, in order. */
  predicate SameIdentities(agents: seq<Agent>, others: seq<Agent>)
  {
    |agents| == |others| && forall j :: 0 <= j < |agents| ==> SameIdentity(agents[j], others[j])
  }

  lemma InitialAgentIds()
    ensures forall j :: 0 <= j < |InitialAgents| ==> InitialAgents[j].id == j + 1
  {
    assert InitialAgents[0].id == 1 && InitialAgents[1].id == 2;
    assert InitialAgents[2].id == 3 && InitialAgents[3].id == 4;
  }

  // ---------------------------------------------------------------------
  // The updaters passed to `setAgents`
  // ---------------------------------------------------------------------

  /** The start updater: the chosen agent becomes in-progress at 0; its score
      and feedback are kept; every other agent is unchanged. */
  function StartAgents(agents: seq<Agent>, id: int): (r: seq<Agent>)
    ensures SameIdentities(r, agents)
    ensures forall j :: 0 <= j < |r| && agents[j].id != id ==> r[j] == agents[j]
    ensures forall j :: 0 <= j < |r| && agents[j].id == id ==>
      r[j].status == InProgress && r[j].progress == 0 &&
      r[j].score == agents[j].score && r[j].feedback == agents[j].feedback
    ensures AllValid(agents) ==> AllValid(r)
  {
    seq(|agents|, j requires 0 <= j < |agents| =>
      if agents[j].id == id then agents[j].(status := InProgress, progress := 0) else agents[j])
  }

  /** The agent after a run-all step that sets its progress to `p`. */
  function RunStep(a: Agent, p: int, draw: int): Agent
    requires ValidDraw(draw)
  {
    a.(progress := p,
       status := if p == 100 then Completed else InProgress,
       score := if p == 100 then Some(draw + ScoreBase) else None,
       feedback := if p == 100 then FeedbackFor(a.id) else None)
  }

  /** One single-run tick on one agent: an in-progress agent moves up by 10,
      capped at 100, as a run-all step to that progress would; an agent in
      any other state is left alone. */
  function TickAgent(a: Agent, draw: int): Agent
    requires ValidDraw(draw)
  {
    if a.status != InProgress then a else RunStep(a, Min(a.progress + SingleStep, 100), draw)
  }

  /** The tick updater of a single run of agent `id`. Only that agent can
      change, and only when it is in progress; its progress becomes
      min(progress + 10, 100), so it never decreases and never passes 100;
      it is completed exactly when its progress is 100, and exactly then it
      carries a score in 75..94 and the feedback of its id. */
  function TickAgents(agents: seq<Agent>, id: int, draw: int): (r: seq<Agent>)
    requires ValidDraw(draw)
    ensures SameIdentities(r, agents)
    ensures forall j :: 0 <= j < |r| && (agents[j].id != id || agents[j].status != InProgress) ==>
      r[j] == agents[j]
    ensures forall j :: 0 <= j < |r| && agents[j].id == id && agents[j].status == InProgress ==>
      r[j].progress == Min(agents[j].progress + SingleStep, 100) &&
      (agents[j].progress <= 100 ==> agents[j].progress <= r[j].progress <= 100) &&
      (r[j].status == Completed <==> r[j].progress == 100) &&
      (r[j].status == InProgress <==> r[j].progress < 100) &&
      (r[j].score.Some? <==> r[j].progress == 100) &&
      (r[j].progress == 100 ==> ScoreBase <= r[j].score.value < ScoreBase + ScoreSpread) &&
      (r[j].progress == 100 ==> r[j].feedback == FeedbackFor(id)) &&
      (r[j].progress < 100 ==> r[j].feedback == None)
    ensures AllValid(agents) ==> AllValid(r)
  {
    seq(|agents|, j requires 0 <= j < |agents| =>
      if agents[j].id == id then TickAgent(agents[j], draw) else agents[j])
  }

  /** The step updater of run-all: the chosen agent gets progress `p`, is
      completed exactly when `p` is 100, and then carries a score in 75..94
      and its feedback; every other agent is unchanged. */
  function SetRunProgress(agents: seq<Agent>, id: int, p: int, draw: int): (r: seq<Agent>)
    requires ValidDraw(draw)
    ensures SameIdentities(r, agents)
    ensures forall j :: 0 <= j < |r| && agents[j].id != id ==> r[j] == agents[j]
    ensures forall j :: 0 <= j < |r| && agents[j].id == id ==>
      r[j].progress == p && (r[j].status == Completed <==> p == 100) &&
      (r[j].status == InProgress <==> p != 100) &&
      (p == 100 ==> r[j].score == Some(draw + ScoreBase) && r[j].feedback == FeedbackFor(id)) &&
      (p != 100 ==> r[j].score == None && r[j].feedback == None)
    ensures AllValid(agents) && 0 <= p <= 100 ==> AllValid(r)
  {
    seq(|agents|, j requires 0 <= j < |agents| =>
      if agents[j].id == id then RunStep(agents[j], p, draw) else agents[j])
  }

  /** `agents.find((a) => a.id === id)`: nothing when no agent has that id,
      otherwise the agent at the first position holding it. */
  function FindAgent(agents: seq<Agent>, id: int): (r: Option<Agent>)
    ensures r.None? <==> forall j :: 0 <= j < |agents| ==> agents[j].id != id
    ensures r.Some? ==> r.value.id == id
    ensures r.Some? ==>
      exists k :: 0 <= k < |agents| && r.value == agents[k] && forall m :: 0 <= m < k ==> agents[m].id != id
  {
    if agents == [] then None
    else if agents[0].id == id then Some(agents[0])
    else
      var r := FindAgent(agents[1..], id);
      assert r.Some? ==> exists k :: 0 <= k < |agents| && r.value == agents[k] && forall m :: 0 <= m < k ==> agents[m].id != id by {
        if r.Some? {
          var k :| 0 <= k < |agents| - 1 && r.value == agents[1..][k] && forall m :: 0 <= m < k ==> agents[1..][m].id != id;
          assert forall m :: 1 <= m < k + 1 ==> agents[m] == agents[1..][m - 1];
        }
      }
      r
  }

  /** The positions of the completed agents. */
  ghost function CompletedPositions(agents: seq<Agent>): set<int>
  {
    set j | 0 <= j < |agents| && agents[j].status == Completed
  }

  /** `agents.filter((a) => a.status === "completed").length`, as shown in
      "k of n evaluations completed": the number of positions holding a
      completed agent; all of them exactly when every agent is completed,
      none exactly when no agent is. */
  function CompletedCount(agents: seq<Agent>): (n: nat)
    ensures n == |CompletedPositions(agents)|
    ensures n <= |agents|
    ensures n == |agents| <==> forall j :: 0 <= j < |agents| ==> agents[j].status == Completed
    ensures n == 0 <==> forall j :: 0 <= j < |agents| ==> agents[j].status != Completed
  {
    if agents == [] then
      assert CompletedPositions(agents) == {};
      0
    else
      var init := agents[..|agents| - 1];
      var last := |agents| - 1;
      assert forall j :: 0 <= j < last ==> agents[j] == init[j];
      assert CompletedPositions(agents) ==
        CompletedPositions(init) + (if agents[last].status == Completed then {last} else {});
      CompletedCount(init) + (if agents[last].status == Completed then 1 else 0)
  }

  /** The run-all shape: an agent has left `Pending` only when every agent
      before it is completed. */
  predicate InSequence(s: seq<Agent>)
  {
    forall i, j :: 0 <= i < j < |s| && s[j].status != Pending ==> s[i].status == Completed
  }

  /** In a run-all snapshot at most one agent is in progress. */
  lemma InSequenceAtMostOneRunning(s: seq<Agent>, i: int, j: int)
    requires InSequence(s)
    requires 0 <= i < |s| && 0 <= j < |s|
    requires s[i].status == InProgress && s[j].status == InProgress
    ensures i == j
  {
  }

  // ---------------------------------------------------------------------
  // Repeated single-run ticks
  // ---------------------------------------------------------------------

  /** The agent after one tick per draw. */
  function TickRepeatedly(a: Agent, draws: seq<int>): Agent
    requires forall i :: 0 <= i < |draws| ==> ValidDraw(draws[i])
    decreases |draws|
  {
    if draws == [] then a else TickRepeatedly(TickAgent(a, draws[0]), draws[1..])
  }

  lemma {:induction false} TicksFromMultipleOfTen(a: Agent, m: nat, draws: seq<int>)
    requires forall i :: 0 <= i < |draws| ==> ValidDraw(draws[i])
    requires a.status == InProgress && a.progress == SingleStep * m
    requires m + |draws| <= 10 && m < 10
    decreases |draws|
    ensures TickRepeatedly(a, draws).progress == SingleStep * (m + |draws|)
    ensures TickRepeatedly(a, draws).status == if m + |draws| == 10 then Completed else InProgress
  {
    if draws != [] {
      var b := TickAgent(a, draws[0]);
      assert b.progress == SingleStep * (m + 1);
      if m + 1 == 10 {
        assert draws[1..] == [];
      } else {
        TicksFromMultipleOfTen(b, m + 1, draws[1..]);
      }
    }
  }

  /** A single run started at 0 completes after exactly ten ticks: after
      k < 10 ticks the agent is in progress at 10k, after ten it is
      completed at 100. */
  lemma TenTicksToComplete(a: Agent, draws: seq<int>)
    requires forall i :: 0 <= i < |draws| ==> ValidDraw(draws[i])
    requires a.status == InProgress && a.progress == 0
    requires |draws| <= 10
    ensures TickRepeatedly(a, draws).progress == SingleStep * |draws|
    ensures TickRepeatedly(a, draws).status == Completed <==> |draws| == 10
  {
    TicksFromMultipleOfTen(a, 0, draws);
  }

  // ---------------------------------------------------------------------
  // The panel
  // ---------------------------------------------------------------------

  class AgentEvaluationPanel {
    var agents: seq<Agent>
    var isRunningAll: bool
    var currentAgent: Option<int>
    /** The agent ids of the single-run intervals still live, oldest first. */
    var tickers: seq<int>

    ghost predicate Valid()
      reads this
    {
      SameIdentities(agents, InitialAgents) && AllValid(agents)
    }

    constructor ()
      ensures Valid() && agents == InitialAgents
      ensures !isRunningAll && currentAgent == None && tickers == []
    {
      agents := InitialAgents;
      isRunningAll := false;
      currentAgent := None;
      tickers := [];
    }

    /** Whether the "Run Evaluation" button of agent `a` is offered and enabled:
        shown for a pending agent, disabled during run-all or any single run. */
    predicate RunButtonEnabled(a: Agent)
      reads this
    {
      a.status == Pending && !isRunningAll && currentAgent.None?
    }

    /** A click on an enabled button takes effect: the agent of position `j`
        starts afresh (in progress at 0, no score, no feedback) and no other
        agent changes, since the ids are distinct. */
    lemma EnabledRunStartsFresh(j: int)
      requires Valid() && 0 <= j < |agents| && RunButtonEnabled(agents[j])
      ensures !isRunningAll
      ensures var r := StartAgents(agents, agents[j].id);
        r[j].status == InProgress && r[j].progress == 0 && r[j].score == None && r[j].feedback == None &&
        forall m :: 0 <= m < |r| && m != j ==> r[m] == agents[m]
    {
      InitialAgentIds();
    }

    /** Restores the initial list and clears the current agent. Live
        single-run intervals are not cancelled. */
    method ResetAgents()
      requires Valid()
      modifies this
      ensures Valid() && agents == InitialAgents && currentAgent == None
      ensures isRunningAll == old(isRunningAll) && tickers == old(tickers)
    {
      agents := InitialAgents;
      currentAgent := None;
    }

    /** Starts a single run of agent `agentId`, unless run-all is in progress:
        that agent alone becomes in-progress at 0, it becomes the current
        agent, and a new interval for it goes live. */
    method RunSingleAgent(agentId: int)
      requires Valid()
      modifies this
      ensures Valid() && isRunningAll == old(isRunningAll)
      ensures old(isRunningAll) ==>
        agents == old(agents) && currentAgent == old(currentAgent) && tickers == old(tickers)
      ensures !old(isRunningAll) ==>
        agents == StartAgents(old(agents), agentId) && currentAgent == Some(agentId) &&
        tickers == old(tickers) + [agentId]
      ensures forall j :: 0 <= j < |agents| && old(agents[j].id == agentId && RunButtonEnabled(agents[j])) ==>
        agents[j].status == InProgress && agents[j].progress == 0 && agents[j].score == None && agents[j].feedback == None
    {
      if isRunningAll {
        return;
      }
      agents := StartAgents(agents, agentId);
      currentAgent := Some(agentId);
      tickers := tickers + [agentId];
    }

    /** The `k`-th live single-run interval fires. Its agent is ticked; if that
        agent is then completed, the interval is cleared and the current agent
        becomes null, otherwise nothing else changes. */
    method FireTicker(k: nat, draw: int)
      requires Valid() && k < |tickers| && ValidDraw(draw)
      modifies this
      ensures Valid() && isRunningAll == old(isRunningAll)
      ensures agents == TickAgents(old(agents), old(tickers[k]), draw)
      ensures FindAgent(agents, old(tickers[k])).Some? &&
              FindAgent(agents, old(tickers[k])).value.status == Completed ==>
        tickers == old(tickers[..k] + tickers[k + 1..]) && currentAgent == None
      ensures !(FindAgent(agents, old(tickers[k])).Some? &&
                FindAgent(agents, old(tickers[k])).value.status == Completed) ==>
        tickers == old(tickers) && currentAgent == old(currentAgent)
    {
      var agentId := tickers[k];
      agents := TickAgents(agents, agentId, draw);
      var found := FindAgent(agents, agentId);
      if found.Some? && found.value.status == Completed {
        tickers := tickers[..k] + tickers[k + 1..];
        currentAgent := None;
      }
    }

    /** Run-all: resets the list, then runs every agent to completion in
        array order. Afterwards all four agents are completed, agent j with
        score draws[j] + 75 and the j-th feedback message, no agent is
        current and run-all is over. The lists it goes through (returned as
        `snapshots`) are those of `RunAllTrace`, each of the run-all shape. */
    method RunAllEvaluations(draws: seq<int>) returns (ghost snapshots: seq<seq<Agent>>)
      requires Valid() && !isRunningAll
      requires |draws| == |InitialAgents| && forall j :: 0 <= j < |draws| ==> ValidDraw(draws[j])
      modifies this
      ensures Valid()
      ensures forall j :: 0 <= j < |agents| ==>
        SameIdentity(agents[j], InitialAgents[j]) &&
        agents[j].status == Completed && agents[j].progress == 100 &&
        agents[j].score == Some(draws[j] + ScoreBase) && agents[j].feedback == Some(FeedbackMessages[j])
      ensures CompletedCount(agents) == |InitialAgents|
      ensures currentAgent == None && !isRunningAll && tickers == old(tickers)
      ensures snapshots == RunAllTrace(draws, |InitialAgents|)
      ensures forall s :: s in snapshots ==> InSequence(s)
    {
      var captured := agents;
      ResetAgents();
      isRunningAll := true;
      snapshots := RunAgentsInSequence(captured, draws);
      RunAllFinished(draws);
      RunAllTraceInSequence(draws, |InitialAgents|);
    }

    /** The awaited stepper of run-all: for each agent in the order of
        `order`, make it current and in-progress at 0, then set its progress
        to 0, 5, ..., 100 one step at a time. */
    method RunAgentsInSequence(order: seq<Agent>, draws: seq<int>) returns (ghost snapshots: seq<seq<Agent>>)
      requires agents == InitialAgents && isRunningAll
      requires SameIdentities(order, InitialAgents)
      requires |draws| == |InitialAgents| && forall j :: 0 <= j < |draws| ==> ValidDraw(draws[j])
      modifies this
      ensures Valid()
      ensures agents == RunAllSnapshot(draws, |InitialAgents| - 1, 100)
      ensures currentAgent == None && !isRunningAll && tickers == old(tickers)
      ensures snapshots == RunAllTrace(draws, |order|)
    {
      InitialAgentIds();
      RunAllBeforeFirst(draws);
      snapshots := [];
      for i := 0 to |order|
        invariant agents == RunAllSnapshot(draws, i - 1, 100) && tickers == old(tickers)
        invariant snapshots == RunAllTrace(draws, i)
      {
        var agentId := order[i].id;
        assert agentId == i + 1;
        currentAgent := Some(agentId);
        RunAllStart(draws, i);
        agents := StartAgents(agents, agentId);
        snapshots := snapshots + [agents];
        var steps := RunAgentSteps(i, agentId, draws);
        snapshots := snapshots + steps;
      }
      currentAgent := None;
      isRunningAll := false;
      RunAllFinishedValid(draws);
    }

    /** The inner loop of run-all for agent `i` (whose id is i + 1): its
        progress is set to 0, 5, ..., 100 in turn, passing through the lists
        of `AgentSteps`. */
    method RunAgentSteps(i: nat, agentId: int, draws: seq<int>) returns (ghost steps: seq<seq<Agent>>)
      requires |draws| == |InitialAgents| && forall j :: 0 <= j < |draws| ==> ValidDraw(draws[j])
      requires i < |InitialAgents| && agentId == i + 1
      requires agents == RunAllSnapshot(draws, i, -5)
      modifies this
      ensures agents == RunAllSnapshot(draws, i, 100)
      ensures currentAgent == old(currentAgent) && isRunningAll == old(isRunningAll) && tickers == old(tickers)
      ensures steps == AgentSteps(draws, i)
    {
      steps := [];
      var progress := 0;
      ghost var count: nat := 0;
      while progress <= 100
        invariant progress == 5 * count && count <= 21
        invariant agents == RunAllSnapshot(draws, i, progress - 5)
        invariant currentAgent == old(currentAgent) && isRunningAll == old(isRunningAll) && tickers == old(tickers)
        invariant steps == AgentSteps(draws, i)[..count]
      {
        RunAllAdvance(draws, i, progress - 5, progress);
        agents := SetRunProgress(agents, agentId, progress, draws[i]);
        assert AgentSteps(draws, i)[..count + 1] == AgentSteps(draws, i)[..count] + [agents];
        steps := steps + [agents];
        progress := progress + 5;
        count := count + 1;
      }
    }
  }

  // ---------------------------------------------------------------------
  // The lists run-all goes through
  // ---------------------------------------------------------------------

  /** The list while run-all works on agent `i`: the agents before `i` are
      completed, those after `i` are as initially, and agent `i` has just
      been started (`p < 0`) or was last set to progress `p`. */
  function RunAllSnapshot(draws: seq<int>, i: int, p: int): (s: seq<Agent>)
    requires |draws| == |InitialAgents| && forall j :: 0 <= j < |draws| ==> ValidDraw(draws[j])
    ensures |s| == |InitialAgents|
  {
    seq(|InitialAgents|, j requires 0 <= j < |InitialAgents| =>
      if j < i then RunStep(InitialAgents[j], 100, draws[j])
      else if j > i then InitialAgents[j]
      else if p < 0 then InitialAgents[j].(status := InProgress)
      else RunStep(InitialAgents[j], p, draws[j]))
  }

  /** The lists run-all goes through for agent `i` after starting it: one
      per step, at progress 0, 5, ..., 100. */
  function AgentSteps(draws: seq<int>, i: int): (r: seq<seq<Agent>>)
    requires |draws| == |InitialAgents| && forall j :: 0 <= j < |draws| ==> ValidDraw(draws[j])
    ensures |r| == 21
  {
    seq(21, c requires 0 <= c < 21 => RunAllSnapshot(draws, i, 5 * c))
  }

  /** The lists run-all goes through for the first `n` agents, in array
      order: for each agent, the list right after starting it, then its
      21 steps. */
  function RunAllTrace(draws: seq<int>, n: nat): (t: seq<seq<Agent>>)
    requires |draws| == |InitialAgents| && forall j :: 0 <= j < |draws| ==> ValidDraw(draws[j])
  {
    if n == 0 then [] else RunAllTrace(draws, n - 1) + [RunAllSnapshot(draws, n - 1, -5)] + AgentSteps(draws, n - 1)
  }

  /** Run-all walks the agents in array order: the trace holds 22 lists per
      agent, and the 22 lists of agent k are agent k just started, then
      agent k at progress 0, 5, ..., 100, with the agents before it
      completed and those after it untouched. */
  lemma {:induction false} RunAllTraceAt(draws: seq<int>, n: nat, k: nat, c: nat)
    requires |draws| == |InitialAgents| && forall j :: 0 <= j < |draws| ==> ValidDraw(draws[j])
    requires k < n && c < 21
    ensures |RunAllTrace(draws, n)| == 22 * n
    ensures RunAllTrace(draws, n)[22 * k] == RunAllSnapshot(draws, k, -5)
    ensures RunAllTrace(draws, n)[22 * k + 1 + c] == RunAllSnapshot(draws, k, 5 * c)
  {
    RunAllTraceLength(draws, n - 1);
    if k < n - 1 {
      RunAllTraceAt(draws, n - 1, k, c);
    }
  }

  lemma {:induction false} RunAllTraceLength(draws: seq<int>, n: nat)
    requires |draws| == |InitialAgents| && forall j :: 0 <= j < |draws| ==> ValidDraw(draws[j])
    ensures |RunAllTrace(draws, n)| == 22 * n
  {
    if n > 0 {
      RunAllTraceLength(draws, n - 1);
    }
  }

  /** Every list run-all goes through, for up to all four agents, has the
      run-all shape, so at most one agent is in progress in it. */
  lemma {:induction false} RunAllTraceInSequence(draws: seq<int>, n: nat)
    requires |draws| == |InitialAgents| && forall j :: 0 <= j < |draws| ==> ValidDraw(draws[j])
    requires n <= |InitialAgents|
    ensures forall s :: s in RunAllTrace(draws, n) ==> InSequence(s)
  {
    if n > 0 {
      RunAllTraceInSequence(draws, n - 1);
      RunAllSnapshotInSequence(draws, n - 1, -5);
      var steps := AgentSteps(draws, n - 1);
      forall c | 0 <= c < 21
        ensures InSequence(steps[c])
      {
        RunAllSnapshotInSequence(draws, n - 1, 5 * c);
      }
    }
  }

  lemma RunAllBeforeFirst(draws: seq<int>)
    requires |draws| == |InitialAgents| && forall j :: 0 <= j < |draws| ==> ValidDraw(draws[j])
    ensures RunAllSnapshot(draws, -1, 100) == InitialAgents
  {
  }

  /** Starting agent `i` after its predecessors finished. */
  lemma RunAllStart(draws: seq<int>, i: int)
    requires |draws| == |InitialAgents| && forall j :: 0 <= j < |draws| ==> ValidDraw(draws[j])
    requires 0 <= i < |InitialAgents|
    ensures StartAgents(RunAllSnapshot(draws, i - 1, 100), i + 1) == RunAllSnapshot(draws, i, -5)
  {
    InitialAgentIds();
  }

  /** One awaited step on agent `i`. */
  lemma RunAllAdvance(draws: seq<int>, i: int, q: int, p: int)
    requires |draws| == |InitialAgents| && forall j :: 0 <= j < |draws| ==> ValidDraw(draws[j])
    requires 0 <= i < |InitialAgents| && 0 <= p <= 100
    ensures SetRunProgress(RunAllSnapshot(draws, i, q), i + 1, p, draws[i]) == RunAllSnapshot(draws, i, p)
  {
    InitialAgentIds();
  }

  /** Every list run-all goes through has the run-all shape. */
  lemma RunAllSnapshotInSequence(draws: seq<int>, i: int, p: int)
    requires |draws| == |InitialAgents| && forall j :: 0 <= j < |draws| ==> ValidDraw(draws[j])
    requires 0 <= i < |InitialAgents| && p <= 100
    ensures InSequence(RunAllSnapshot(draws, i, p))
  {
  }

  /** The list run-all ends with keeps the agents' identities and every
      agent invariant. */
  lemma RunAllFinishedValid(draws: seq<int>)
    requires |draws| == |InitialAgents| && forall j :: 0 <= j < |draws| ==> ValidDraw(draws[j])
    ensures var s := RunAllSnapshot(draws, |InitialAgents| - 1, 100);
      SameIdentities(s, InitialAgents) && AllValid(s)
  {
    InitialAgentIds();
  }

  /** The list run-all ends with: every agent completed at 100 with the
      score of its draw and the feedback message of its position. */
  lemma RunAllFinished(draws: seq<int>)
    requires |draws| == |InitialAgents| && forall j :: 0 <= j < |draws| ==> ValidDraw(draws[j])
    ensures var s := RunAllSnapshot(draws, |InitialAgents| - 1, 100);
      CompletedCount(s) == |InitialAgents| &&
      forall j :: 0 <= j < |s| ==>
        s[j].status == Completed && s[j].progress == 100 &&
        s[j].score == Some(draws[j] + ScoreBase) && s[j].feedback == Some(FeedbackMessages[j])
  {
    InitialAgentIds();
  }
}

=== FILE: evaluation_metrics.dfy ===
/** The evaluation metrics panel: three tabs (performance bars, a live
    time series, fixed scores), a one-off loading delay, and a refresh
    ticker that exists exactly while the time-series tab is shown and slides
    a seven-point window along by one sample per firing. */
module MetricsPanel {
  import opened Types
  import opened JsStrings

  /** One bar of the performance chart. */
  datatype Metric = Metric(name: string, value: int)

  /** One sample of the time series: a label such as "30s" and two percentages. */
  datatype TimePoint = TimePoint(time: string, cpu: int, memory: int)

  /** The tabs the panel offers. */
  datatype MetricsTab = Performance | TimeSeries | Scores

  const PerformanceData: seq<Metric> := [
    Metric("CPU Usage", 35),
    Metric("Memory", 42),
    Metric("Latency", 28),
    Metric("Throughput", 85),
    Metric("Error Rate", 12)]

  const InitialTimeSeries: seq<TimePoint> := [
    TimePoint("0s", 10, 20),
    TimePoint("10s", 25, 30),
    TimePoint("20s", 35, 35),
    TimePoint("30s", 30, 40),
    TimePoint("40s", 40, 45),
    TimePoint("50s", 35, 42),
    TimePoint("60s", 30, 40)]

  /** Seconds between two samples, and the ranges of the random cpu and memory draws. */
  const LabelStep := 10
  const CpuBase := 25
  const CpuSpread := 20
  const MemoryBase := 35
  const MemorySpread := 15

  /** The time label `${t}s`. */
  function Label(t: nat): string
  {
    NatToString(t) + "s"
  }

  /** The next label from the parsed previous one: its number plus ten, or
      "NaNs" when `ParseLeadingInt` finds no number. That parser covers only
      text starting with its digits (JavaScript's `parseInt` would also read
      " 5s" or "+5s" as 5); the labels never take those forms. Every label
      `${t}s` is followed by `${t + 10}s`. */
  function NextLabel(prev: string): (s: string)
    ensures forall t: nat {:trigger Label(t)} :: prev == Label(t) ==> s == Label(t + LabelStep)
    ensures ParseLeadingInt(prev).Some? ==> s == Label(ParseLeadingInt(prev).value + LabelStep)
    ensures ParseLeadingInt(prev).None? ==> s == "NaNs"
  {
    assert forall t: nat {:trigger Label(t)} :: prev == Label(t) ==> ParseLeadingInt(prev) == Some(t) by {
      forall t: nat | prev == Label(t)
        ensures ParseLeadingInt(prev) == Some(t)
      {
        ParseFormatted(t, "s");
      }
    }
    match ParseLeadingInt(prev)
    case Some(v) => Label(v + LabelStep)
    case None => "NaNs"
  }

  /** The ticker's updater: the oldest sample leaves, a new one with the next
      label and the drawn values joins at the end. `cpuDraw` and `memoryDraw`
      stand for `Math.floor(Math.random() * 20)` and `Math.floor(Math.random() * 15)`. */
  function SlideWindow(prev: seq<TimePoint>, cpuDraw: int, memoryDraw: int): (next: seq<TimePoint>)
    requires |prev| > 0
    requires 0 <= cpuDraw < CpuSpread && 0 <= memoryDraw < MemorySpread
    ensures |next| == |prev|
    ensures next[..|next| - 1] == prev[1..]
    ensures next[|next| - 1].time == NextLabel(prev[|prev| - 1].time)
    ensures 25 <= next[|next| - 1].cpu <= 44 && 35 <= next[|next| - 1].memory <= 49
  {
    var last := prev[|prev| - 1];
    var point := TimePoint(NextLabel(last.time), cpuDraw + CpuBase, memoryDraw + MemoryBase);
    var next := prev[1..] + [point];
    assert next[..|next| - 1] == prev[1..];
    next
  }

  /** What the panel keeps true of its window: seven samples, labelled ten
      seconds apart from `start`, all values percentages. */
  predicate WindowValid(s: seq<TimePoint>, start: nat)
  {
    |s| == 7 && WellSpaced(s, start) && Percentages(s)
  }

  /** The sample window is a valid window starting at 0s.
      The constant is passed in as `s` so that it is not unfolded in every proof step. */
  lemma InitialWindowValid(s: seq<TimePoint>, start: nat)
    requires s == InitialTimeSeries && start == 0
    ensures WindowValid(s, start)
  {
    InitialTimeSeriesWellSpaced(s, start);
    InitialTimeSeriesPercentages(s);
  }

  /** Round trip: the label after `${t}s` is `${t + 10}s`. */
  lemma NextLabelOfLabel(t: nat)
    ensures NextLabel(Label(t)) == Label(t + 10)
  {
    ParseFormatted(t, "s");
  }

  /** The labels run "t s", "t+10 s", "t+20 s", … from `start`. */
  predicate WellSpaced(s: seq<TimePoint>, start: nat)
    decreases |s|
  {
    s == [] || (s[0].time == Label(start) && WellSpaced(s[1..], start + 10))
  }

  /** Every value is a percentage, as the chart's 0%..100% axis assumes. */
  predicate Percentages(s: seq<TimePoint>)
  {
    forall i :: 0 <= i < |s| ==> 0 <= s[i].cpu <= 100 && 0 <= s[i].memory <= 100
  }

  /** In a well-spaced window the sample at position i carries the label of
      `start + 10 * i` seconds. */
  lemma {:induction false} WellSpacedLabelAt(s: seq<TimePoint>, start: nat, i: nat)
    requires WellSpaced(s, start) && i < |s|
    ensures s[i].time == Label(start + 10 * i)
    decreases i
  {
    if i > 0 {
      WellSpacedLabelAt(s[1..], start + 10, i - 1);
      assert s[1..][i - 1] == s[i];
    }
  }

  /** Dropping the oldest sample keeps a window well spaced, from the next label on. */
  lemma WellSpacedTail(s: seq<TimePoint>, start: nat)
    requires |s| > 0 && WellSpaced(s, start)
    ensures WellSpaced(s[1..], start + 10)
  {
  }

  /** A window whose sample i carries the label of `start + 10 * i` seconds is well spaced. */
  lemma {:induction false} WellSpacedFromLabels(s: seq<TimePoint>, start: nat)
    requires forall i :: 0 <= i < |s| ==> s[i].time == Label(start + 10 * i)
    ensures WellSpaced(s, start)
    decreases |s|
  {
    if s != [] {
      forall i | 0 <= i < |s| - 1
        ensures s[1..][i].time == Label(start + 10 + 10 * i)
      {
        assert s[1..][i] == s[i + 1];
        assert start + 10 * (i + 1) == start + 10 + 10 * i;
      }
      WellSpacedFromLabels(s[1..], start + 10);
      assert s[0].time == Label(start + 10 * 0);
    }
  }

  /** Dropping the oldest sample and appending one labelled ten seconds
      after the last keeps a window well spaced, from the next label on. */
  lemma ShiftWellSpaced(prev: seq<TimePoint>, start: nat, p: TimePoint)
    requires |prev| > 0 && WellSpaced(prev, start) && p.time == Label(start + 10 * |prev|)
    ensures WellSpaced(prev[1..] + [p], start + 10)
  {
    WellSpacedTail(prev, start);
    WellSpacedAppend(prev[1..], start + 10, start + 10 * |prev|, p);
  }

  /** Appending the sample whose label follows the last one keeps a window well spaced. */
  lemma {:induction false} WellSpacedAppend(s: seq<TimePoint>, start: nat, t: nat, p: TimePoint)
    requires WellSpaced(s, start) && t == start + 10 * |s| && p.time == Label(t)
    ensures WellSpaced(s + [p], start)
    decreases |s|
  {
    if s == [] {
      assert t == start;
      assert [p][1..] == [];
    } else {
      WellSpacedAppend(s[1..], start + 10, t, p);
      assert (s + [p])[1..] == s[1..] + [p];
    }
  }

  /** The labels of the sample window, read as `${t}s`.
      The constant is passed in as `s` so that it is not unfolded in every proof step. */
  lemma InitialTimeSeriesLabels(s: seq<TimePoint>)
    requires s == InitialTimeSeries
    ensures s[0].time == Label(0) && s[1].time == Label(10) && s[2].time == Label(20)
    ensures s[3].time == Label(30) && s[4].time == Label(40)
    ensures s[5].time == Label(50) && s[6].time == Label(60)
  {
    assert NatToString(10) == "10" && NatToString(20) == "20" && NatToString(30) == "30";
    assert NatToString(40) == "40" && NatToString(50) == "50" && NatToString(60) == "60";
  }

  /** The sample window: seven samples, labelled from 0s in steps of ten seconds.
      The constant is passed in as `s` so that it is not unfolded in every proof step. */
  lemma InitialTimeSeriesWellSpaced(s: seq<TimePoint>, start: nat)
    requires s == InitialTimeSeries && start == 0
    ensures |s| == 7 && WellSpaced(s, start)
  {
    InitialTimeSeriesLabels(s);
    WellSpacedFromLabels(s, start);
  }

  /** Every value of the sample window is a percentage.
      The constant is passed in as `s` so that it is not unfolded in every proof step. */
  lemma InitialTimeSeriesPercentages(s: seq<TimePoint>)
    requires s == InitialTimeSeries
    ensures Percentages(s)
  {
  }

  /** The sample a slide appends carries the label ten seconds after the
      old last one. */
  lemma SlideWindowNewLabel(prev: seq<TimePoint>, t: nat, u: nat, cpuDraw: int, memoryDraw: int)
    requires |prev| > 0 && prev[|prev| - 1].time == Label(t) && u == t + 10
    requires 0 <= cpuDraw < CpuSpread && 0 <= memoryDraw < MemorySpread
    ensures SlideWindow(prev, cpuDraw, memoryDraw)[|prev| - 1].time == Label(u)
  {
    NextLabelOfLabel(t);
  }

  /** A slide is the old window without its first sample, plus one. */
  lemma SlideWindowShape(prev: seq<TimePoint>, cpuDraw: int, memoryDraw: int)
    requires |prev| > 0
    requires 0 <= cpuDraw < CpuSpread && 0 <= memoryDraw < MemorySpread
    ensures var next := SlideWindow(prev, cpuDraw, memoryDraw);
      next == prev[1..] + [next[|prev| - 1]]
  {
    var next := SlideWindow(prev, cpuDraw, memoryDraw);
    assert next == next[..|prev| - 1] + [next[|prev| - 1]];
  }

  /** Sliding keeps the labels ten seconds apart, now counting from the
      second sample. */
  lemma {:induction false} SlideWindowKeepsSpacing(prev: seq<TimePoint>, start: nat, cpuDraw: int, memoryDraw: int)
    requires |prev| > 0 && WellSpaced(prev, start)
    requires 0 <= cpuDraw < CpuSpread && 0 <= memoryDraw < MemorySpread
    ensures WellSpaced(SlideWindow(prev, cpuDraw, memoryDraw), start + 10)
  {
    var next := SlideWindow(prev, cpuDraw, memoryDraw);
    WellSpacedLabelAt(prev, start, |prev| - 1);
    SlideWindowNewLabel(prev, start + 10 * (|prev| - 1), start + 10 * |prev|, cpuDraw, memoryDraw);
    SlideWindowShape(prev, cpuDraw, memoryDraw);
    ShiftWellSpaced(prev, start, next[|prev| - 1]);
  }

  /** Sliding keeps every value a percentage. */
  lemma {:induction false} SlideWindowKeepsPercentages(prev: seq<TimePoint>, cpuDraw: int, memoryDraw: int)
    requires |prev| > 0 && Percentages(prev)
    requires 0 <= cpuDraw < CpuSpread && 0 <= memoryDraw < MemorySpread
    ensures Percentages(SlideWindow(prev, cpuDraw, memoryDraw))
  {
    var next := SlideWindow(prev, cpuDraw, memoryDraw);
    forall i | 0 <= i < |next| - 1
      ensures next[i] == prev[i + 1]
    {
      assert next[i] == next[..|next| - 1][i];
    }
  }

  /** `s.filter((_, i) => i % 2 === 0)`: the items at even positions, in order. */
  function EvenIndexed<T>(s: seq<T>): (r: seq<T>)
    ensures |r| == (|s| + 1) / 2
    ensures forall j :: 0 <= j < |r| ==> r[j] == s[2 * j]
  {
    if |s| == 0 then []
    else if |s| == 1 then [s[0]]
    else [s[0]] + EvenIndexed(s[2..])
  }

  /** The labels under the time axis. */
  function AxisLabels(s: seq<TimePoint>): (labels: seq<string>)
    ensures |labels| == (|s| + 1) / 2
    ensures forall j :: 0 <= j < |labels| ==> labels[j] == s[2 * j].time
  {
    var points := EvenIndexed(s);
    seq(|points|, j requires 0 <= j < |points| => points[j].time)
  }

  /** On a seven-sample window starting at `start` the axis shows four
      labels, twenty seconds apart. */
  lemma {:induction false} AxisLabelsOfWindow(s: seq<TimePoint>, start: nat)
    requires |s| == 7 && WellSpaced(s, start)
    ensures AxisLabels(s) == [Label(start), Label(start + 20), Label(start + 40), Label(start + 60)]
  {
    var labels := AxisLabels(s);
    WellSpacedLabelAt(s, start, 0);
    WellSpacedLabelAt(s, start, 2);
    WellSpacedLabelAt(s, start, 4);
    WellSpacedLabelAt(s, start, 6);
    assert labels[0] == s[0].time && labels[1] == s[2].time;
    assert labels[2] == s[4].time && labels[3] == s[6].time;
  }

  class EvaluationMetrics {
    var activeTab: MetricsTab
    var isLoading: bool
    const currentData: seq<Metric>
    var timeData: seq<TimePoint>
    /** The handle of the live refresh ticker, if the panel holds one. */
    var refreshInterval: Option<nat>
    /** The handles of the refresh tickers the runtime still fires. */
    var scheduled: set<nat>
    /** Whether the one-second loading delay is still pending. */
    var loadingTimerLive: bool
    /** Handles the runtime has not yet given out start here. */
    var nextHandle: nat
    /** The number of seconds the first sample of the window stands for. */
    ghost var windowStart: nat

    /** The window has seven well-spaced samples; exactly one ticker is live
        while the time-series tab is shown, and none otherwise; the panel is
        loading exactly while the loading delay is pending. */
    ghost predicate Valid()
      reads this
    {
      WindowValid(timeData, windowStart) &&
      (refreshInterval.Some? <==> activeTab == TimeSeries) &&
      scheduled == (if refreshInterval.Some? then {refreshInterval.value} else {}) &&
      (forall h :: h in scheduled ==> h < nextHandle) &&
      isLoading == loadingTimerLive
    }

    /** Mounting: performance tab, loading, the sample window, the loading
        delay started and no ticker (the first run of the effect finds the
        performance tab and does nothing). */
    constructor ()
      ensures Valid()
      ensures activeTab == Performance && isLoading && loadingTimerLive
      ensures currentData == PerformanceData && timeData == InitialTimeSeries
      ensures refreshInterval == None && scheduled == {}
    {
      activeTab := Performance;
      isLoading := true;
      currentData := PerformanceData;
      timeData := InitialTimeSeries;
      refreshInterval := None;
      scheduled := {};
      loadingTimerLive := true;
      nextHandle := 1;
      windowStart := 0;
      new;
      InitialWindowValid(timeData, windowStart);
    }

    /** The loading delay fires: loading ends, nothing else changes. */
    method LoadingDone()
      requires Valid() && loadingTimerLive
      modifies this
      ensures Valid() && !isLoading && !loadingTimerLive
      ensures activeTab == old(activeTab) && timeData == old(timeData)
      ensures refreshInterval == old(refreshInterval) && scheduled == old(scheduled)
      ensures nextHandle == old(nextHandle) && windowStart == old(windowStart)
    {
      loadingTimerLive := false;
      isLoading := false;
    }

    /** A tab is chosen. A change of tab first runs the clean-up of the
        effect's previous run (which clears the held ticker, if any), then
        the effect: on the time-series tab without a ticker it starts one
        under a fresh handle; off that tab with a ticker it clears it and
        forgets the handle. The render that follows runs the effect once
        more, which then takes neither branch. */
    method SelectTab(tab: MetricsTab)
      requires Valid()
      modifies this
      ensures Valid() && activeTab == tab
      ensures old(activeTab) == tab ==> refreshInterval == old(refreshInterval) && scheduled == old(scheduled)
      ensures old(activeTab) != TimeSeries && tab == TimeSeries ==>
        refreshInterval == Some(old(nextHandle)) && scheduled == {old(nextHandle)} && old(nextHandle) !in old(scheduled)
      ensures tab != TimeSeries ==> refreshInterval == None && scheduled == {}
      ensures timeData == old(timeData) && isLoading == old(isLoading) && loadingTimerLive == old(loadingTimerLive)
      ensures windowStart == old(windowStart)
      ensures !(old(activeTab) != TimeSeries && tab == TimeSeries) ==> nextHandle == old(nextHandle)
    {
      if tab != activeTab {
        activeTab := tab;
        // clean-up of the previous run
        if refreshInterval.Some? {
          scheduled := scheduled - {refreshInterval.value};
        }
        // the effect
        if activeTab == TimeSeries && refreshInterval.None? {
          var handle := nextHandle;
          nextHandle := nextHandle + 1;
          scheduled := scheduled + {handle};
          refreshInterval := Some(handle);
        } else if activeTab != TimeSeries && refreshInterval.Some? {
          scheduled := scheduled - {refreshInterval.value};
          refreshInterval := None;
        }
      }
    }

    /** The refresh ticker fires: the window slides by one sample. */
    method RefreshTick(handle: nat, cpuDraw: int, memoryDraw: int)
      requires Valid() && handle in scheduled
      requires 0 <= cpuDraw < CpuSpread && 0 <= memoryDraw < MemorySpread
      modifies this
      ensures Valid() && activeTab == TimeSeries
      ensures timeData == SlideWindow(old(timeData), cpuDraw, memoryDraw)
      ensures windowStart == old(windowStart) + 10
      ensures activeTab == old(activeTab) && refreshInterval == old(refreshInterval) && scheduled == old(scheduled)
      ensures isLoading == old(isLoading) && loadingTimerLive == old(loadingTimerLive) && nextHandle == old(nextHandle)
    {
      SlideWindowKeepsSpacing(timeData, windowStart, cpuDraw, memoryDraw);
      SlideWindowKeepsPercentages(timeData, cpuDraw, memoryDraw);
      timeData := SlideWindow(timeData, cpuDraw, memoryDraw);
      windowStart := windowStart + 10;
    }

    /** Unmounting runs the clean-ups: the loading delay and the held ticker
        are cleared, so nothing of the panel fires afterwards. */
    method Unmount()
      requires Valid()
      modifies this
      ensures scheduled == {} && !loadingTimerLive
    {
      loadingTimerLive := false;
      if refreshInterval.Some? {
        scheduled := scheduled - {refreshInterval.value};
      }
    }

    /** The labels under the time axis: every other sample's label, four of them. */
    function XAxisLabels(): (labels: seq<string>)
      reads this
      requires Valid()
      ensures labels == [Label(windowStart), Label(windowStart + 20), Label(windowStart + 40), Label(windowStart + 60)]
    {
      AxisLabelsOfWindow(timeData, windowStart);
      AxisLabels(timeData)
    }
  }
}

=== FILE: js_strings.dfy ===
/** The JavaScript string operations the panels rely on, modelled on
    `seq<char>`: `split`/`join` on a one-character separator, `trim`,
    number-to-decimal formatting and `Number.parseInt` of a decimal prefix. */
module JsStrings {
  import opened Types

  // ---------------------------------------------------------------------
  // split / join
  // ---------------------------------------------------------------------

  /** `parts.join(sep)`: the parts with one separator between neighbours.
      No parts give the empty string, one part gives itself, and otherwise
      the text starts with the first part followed by the separator. */
  function Join(parts: seq<string>, sep: char): (s: string)
    ensures |parts| == 0 ==> s == ""
    ensures |parts| == 1 ==> s == parts[0]
    ensures |parts| >= 1 ==> parts[0] <= s
    ensures |parts| >= 2 ==> |parts[0]| < |s| && s[|parts[0]|] == sep
  {
    if |parts| == 0 then ""
    else if |parts| == 1 then parts[0]
    else parts[0] + [sep] + Join(parts[1..], sep)
  }

  /** `s.split(sep)`: the maximal separator-free pieces of `s`, in order.
      As in JavaScript, the empty string splits into one empty piece, and a
      string with k separators into k + 1 pieces. */
  function Split(s: string, sep: char): (parts: seq<string>)
    ensures |parts| >= 1
    ensures forall i :: 0 <= i < |parts| ==> sep !in parts[i]
    ensures Join(parts, sep) == s
  {
    if s == [] then [""]
    else
      var rest := Split(s[1..], sep);
      if s[0] == sep then
        assert s == [sep] + s[1..];
        [""] + rest
      else
        var parts := [[s[0]] + rest[0]] + rest[1..];
        assert parts[1..] == rest[1..];
        assert s == [s[0]] + s[1..];
        parts
  }

  /** Splitting a piece that holds no separator gives that piece back. */
  lemma {:induction false} SplitWithoutSeparator(p: string, sep: char)
    requires sep !in p
    ensures Split(p, sep) == [p]
  {
    if p != [] {
      SplitWithoutSeparator(p[1..], sep);
      assert [p[0]] + p[1..] == p;
    }
  }

  /** A separator-free prefix followed by a separator splits off as one piece. */
  lemma {:induction false} SplitAtFirstSeparator(p: string, sep: char, t: string)
    requires sep !in p
    ensures Split(p + [sep] + t, sep) == [p] + Split(t, sep)
  {
    var s := p + [sep] + t;
    if p == [] {
      assert s[0] == sep && s[1..] == t;
    } else {
      assert s[0] == p[0] && s[1..] == p[1..] + [sep] + t;
      SplitAtFirstSeparator(p[1..], sep, t);
      assert [p[0]] + p[1..] == p;
    }
  }

  /** Round trip: joining separator-free pieces and splitting again gives the pieces. */
  lemma {:induction false} SplitJoin(parts: seq<string>, sep: char)
    requires |parts| >= 1
    requires forall i :: 0 <= i < |parts| ==> sep !in parts[i]
    ensures Split(Join(parts, sep), sep) == parts
  {
    if |parts| == 1 {
      SplitWithoutSeparator(parts[0], sep);
    } else {
      SplitJoin(parts[1..], sep);
      SplitAtFirstSeparator(parts[0], sep, Join(parts[1..], sep));
      assert [parts[0]] + parts[1..] == parts;
    }
  }

  // ---------------------------------------------------------------------
  // trim
  // ---------------------------------------------------------------------

  /** The characters `String.prototype.trim` removes: white space and line terminators. */
  predicate IsJsWhitespace(c: char)
  {
    c in {'\t', '\n', '\U{000B}', '\U{000C}', '\r', ' ', '\U{00A0}', '\U{1680}',
          '\U{2000}', '\U{2001}', '\U{2002}', '\U{2003}', '\U{2004}', '\U{2005}',
          '\U{2006}', '\U{2007}', '\U{2008}', '\U{2009}', '\U{200A}', '\U{2028}',
          '\U{2029}', '\U{202F}', '\U{205F}', '\U{3000}', '\U{FEFF}'}
  }

  /** Drops the leading white space. */
  function TrimStart(s: string): (r: string)
    ensures |r| <= |s| && r == s[|s| - |r|..]
    ensures forall i :: 0 <= i < |s| - |r| ==> IsJsWhitespace(s[i])
    ensures r != [] ==> !IsJsWhitespace(r[0])
  {
    if s != [] && IsJsWhitespace(s[0]) then TrimStart(s[1..]) else s
  }

  /** Drops the trailing white space. */
  function TrimEnd(s: string): (r: string)
    ensures |r| <= |s| && r == s[..|r|]
    ensures forall i :: |r| <= i < |s| ==> IsJsWhitespace(s[i])
    ensures r != [] ==> !IsJsWhitespace(r[|r| - 1])
  {
    if s != [] && IsJsWhitespace(s[|s| - 1]) then TrimEnd(s[..|s| - 1]) else s
  }

  /** A prefix of the suffix of `s` from `a` is a slice of `s`. */
  lemma PrefixOfSuffix(s: string, a: nat, front: string, r: string)
    requires a <= |s| && front == s[a..] && |r| <= |front| && r == front[..|r|]
    ensures a + |r| <= |s| && r == s[a..a + |r|]
  {
  }

  /** What follows that slice in the suffix also follows it in `s`. */
  lemma AfterPrefixOfSuffix(s: string, a: nat, front: string, n: nat)
    requires a <= |s| && front == s[a..] && n <= |front|
    requires forall i :: n <= i < |front| ==> IsJsWhitespace(front[i])
    ensures forall i :: a + n <= i < |s| ==> IsJsWhitespace(s[i])
  {
    forall i | a + n <= i < |s|
      ensures IsJsWhitespace(s[i])
    {
      assert s[i] == front[i - a];
    }
  }

  /** `s.trim()`: empty exactly when `s` is all white space; otherwise it
      starts and ends with a character that is not white space. */
  function Trim(s: string): (r: string)
    ensures |r| <= |s|
    ensures r == [] <==> forall i :: 0 <= i < |s| ==> IsJsWhitespace(s[i])
    ensures r != [] ==> !IsJsWhitespace(r[0]) && !IsJsWhitespace(r[|r| - 1])
  {
    var front := TrimStart(s);
    var r := TrimEnd(front);
    assert r == [] ==> forall i :: 0 <= i < |s| ==> IsJsWhitespace(s[i]) by {
      if r == [] {
        assert front == [];
      }
    }
    assert r != [] ==> r[0] == front[0];
    r
  }

  /** `s.trim()` is the slice of `s` that starts after the leading white
      space and is followed by white space only: it drops exactly the white
      space at both ends, and keeps the rest in order. */
  lemma TrimIsSlice(s: string, a: nat, r: string)
    requires a == |s| - |TrimStart(s)| && r == Trim(s)
    ensures a + |r| <= |s| && r == s[a..a + |r|]
    ensures forall i :: 0 <= i < a ==> IsJsWhitespace(s[i])
    ensures forall i :: a + |r| <= i < |s| ==> IsJsWhitespace(s[i])
  {
    var front := TrimStart(s);
    assert r == TrimEnd(front);
    PrefixOfSuffix(s, a, front, r);
    AfterPrefixOfSuffix(s, a, front, |r|);
  }

  // ---------------------------------------------------------------------
  // numbers as decimal text
  // ---------------------------------------------------------------------

  predicate IsDigit(c: char)
  {
    '0' <= c <= '9'
  }

  predicate AllDigits(s: string)
  {
    forall i :: 0 <= i < |s| ==> IsDigit(s[i])
  }

  function DigitChar(d: int): (c: char)
    requires 0 <= d < 10
    ensures IsDigit(c)
  {
    (('0' as int) + d) as char
  }

  function DigitValue(c: char): (d: int)
    requires IsDigit(c)
    ensures 0 <= d < 10 && DigitChar(d) == c
  {
    (c as int) - ('0' as int)
  }

  /** The decimal text of a natural number, as a template literal renders it. */
  function NatToString(n: nat): (s: string)
    ensures |s| >= 1 && AllDigits(s)
  {
    if n < 10 then [DigitChar(n)] else NatToString(n / 10) + [DigitChar(n % 10)]
  }

  /** The value of a run of decimal digits (0 for the empty run). */
  function DigitsValue(ds: string): nat
    requires AllDigits(ds)
  {
    if ds == [] then 0 else DigitsValue(ds[..|ds| - 1]) * 10 + DigitValue(ds[|ds| - 1])
  }

  /** The longest prefix of `s` made of decimal digits. */
  function LeadingDigits(s: string): (ds: string)
    ensures |ds| <= |s| && ds == s[..|ds|] && AllDigits(ds)
    ensures |ds| < |s| ==> !IsDigit(s[|ds|])
  {
    if s != [] && IsDigit(s[0]) then [s[0]] + LeadingDigits(s[1..]) else ""
  }

  /** `Number.parseInt(s)` for text that starts with its digits: the value of
      the leading digits, or `None` (NaN) when `s` does not start with one. */
  function ParseLeadingInt(s: string): (r: Option<nat>)
    ensures r.None? <==> s == [] || !IsDigit(s[0])
  {
    var ds := LeadingDigits(s);
    if ds == [] then None else Some(DigitsValue(ds))
  }

  lemma {:induction false} DigitsValueOfNatToString(n: nat)
    ensures DigitsValue(NatToString(n)) == n
  {
    if n >= 10 {
      var s := NatToString(n / 10);
      var t := s + [DigitChar(n % 10)];
      DigitsValueOfNatToString(n / 10);
      assert t[..|t| - 1] == s;
    }
  }

  lemma {:induction false} LeadingDigitsStopsAtNonDigit(ds: string, rest: string)
    requires AllDigits(ds)
    requires rest == [] || !IsDigit(rest[0])
    ensures LeadingDigits(ds + rest) == ds
  {
    if ds != [] {
      assert (ds + rest)[1..] == ds[1..] + rest;
      LeadingDigitsStopsAtNonDigit(ds[1..], rest);
      assert [ds[0]] + ds[1..] == ds;
    } else {
      assert ds + rest == rest;
    }
  }

  /** Round trip: parsing the label `${n}<suffix>` gives `n` back, for any
      suffix that does not start with a digit. */
  lemma ParseFormatted(n: nat, suffix: string)
    requires suffix == [] || !IsDigit(suffix[0])
    ensures ParseLeadingInt(NatToString(n) + suffix) == Some(n)
  {
    LeadingDigitsStopsAtNonDigit(NatToString(n), suffix);
    DigitsValueOfNatToString(n);
  }
}

=== FILE: pipeline_evaluator.dfy ===
/** The pipeline evaluator panel: a text area holding a pipeline
    description, an "evaluation" whose progress rises by 5 per timer tick,
    and, once it reaches 100, a fixed result delivered after a delay. The
    result does not depend on the text. The analysis view marks the lines
    the result's issues point at. */
module EvaluatorPanel {
  import opened Types
  import opened JsStrings

  /** Progress added by one tick of the evaluation interval. */
  const ProgressStep := 5

  const SamplePipelineDefinition: string :=
    "# GStreamer Pipeline Definition\n" +
    "v4l2src device=/dev/video0 ! \n" +
    "  videoconvert ! \n" +
    "  videoscale ! \n" +
    "  video/x-raw,width=1280,height=720 ! \n" +
    "  x264enc tune=zerolatency ! \n" +
    "  mp4mux ! \n" +
    "  filesink location=output.mp4"

  /** The one result every evaluation delivers. */
  const FixedEvaluation := EvaluationResult(
    true,
    87,
    [ EvaluationIssue(Warning,
        "No queue elements found. Consider adding queue elements for better performance on multi-core systems.",
        Some(3)),
      EvaluationIssue(Info,
        "Consider using hardware acceleration if available on target device.",
        Some(5)) ],
    [ "Add queue elements between processing stages",
      "Consider using hardware-accelerated encoders if available",
      "Add rate control parameters to x264enc for better quality/size tradeoff" ])

  datatype EvaluatorTab = PipelineTab | ResultsTab

  /** The caption under the progress bar. */
  datatype EvaluationStep =
    | ParsingStructure
    | AnalyzingConfigurations
    | EvaluatingPerformance
    | GeneratingRecommendations

  function StepRank(s: EvaluationStep): nat
  {
    match s
    case ParsingStructure => 0
    case AnalyzingConfigurations => 1
    case EvaluatingPerformance => 2
    case GeneratingRecommendations => 3
  }

  /** The captions rendered for a progress value: each of the four guarded
      captions appears when its own condition holds. Their ranges cover
      every value once, so exactly one caption is shown. */
  function StepLabels(progress: int): (labels: seq<EvaluationStep>)
    ensures |labels| == 1
  {
    (if progress < 30 then [ParsingStructure] else []) +
    (if progress >= 30 && progress < 60 then [AnalyzingConfigurations] else []) +
    (if progress >= 60 && progress < 90 then [EvaluatingPerformance] else []) +
    (if progress >= 90 then [GeneratingRecommendations] else [])
  }

  /** The caption only moves forward as progress grows, from parsing at 0 to
      generating recommendations at 100. */
  lemma StepLabelsAdvance(p: int, q: int)
    requires p <= q
    ensures StepRank(StepLabels(p)[0]) <= StepRank(StepLabels(q)[0])
    ensures StepLabels(0) == [ParsingStructure] && StepLabels(100) == [GeneratingRecommendations]
  {
  }

  // ---------------------------------------------------------------------
  // Line highlighting
  // ---------------------------------------------------------------------

  /** The position `issues.find((i) => i.line === n)` stops at: the first issue
      on line `n`, or `|issues|` when no issue is. */
  function FirstIssueAt(issues: seq<EvaluationIssue>, n: int): (k: nat)
    ensures k <= |issues|
    ensures forall m :: 0 <= m < k ==> issues[m].line != Some(n)
    ensures k < |issues| ==> issues[k].line == Some(n)
  {
    if issues == [] then 0
    else if issues[0].line == Some(n) then 0
    else 1 + FirstIssueAt(issues[1..], n)
  }

  /** `issues.find((i) => i.line === n)`: nothing when no issue is on line
      `n`, otherwise the issue at the first position on that line. */
  function IssueForLine(issues: seq<EvaluationIssue>, n: int): (r: Option<EvaluationIssue>)
    ensures r.None? <==> forall m :: 0 <= m < |issues| ==> issues[m].line != Some(n)
    ensures r.Some? ==> r.value.line == Some(n)
    ensures r.Some? ==>
      exists k :: 0 <= k < |issues| && r.value == issues[k] && forall m :: 0 <= m < k ==> issues[m].line != Some(n)
  {
    var k := FirstIssueAt(issues, n);
    if k < |issues| then Some(issues[k]) else None
  }

  function HighlightClass(kind: IssueType): string
  {
    if kind == Warning then "highlight-warning" else "highlight-info"
  }

  /** `<span class="${cls}">${line}</span>`, the line left as it is. */
  function Wrap(cls: string, line: string): string
  {
    "<span class=\"" + cls + "\">" + line + "</span>"
  }

  /** Line `n` (1-based) of the analysis view. */
  function HighlightLine(line: string, n: int, issues: seq<EvaluationIssue>): string
  {
    match IssueForLine(issues, n)
    case None => line
    case Some(issue) => Wrap(HighlightClass(issue.kind), line)
  }

  function HighlightLines(lines: seq<string>, issues: seq<EvaluationIssue>): (r: seq<string>)
    ensures |r| == |lines|
  {
    seq(|lines|, i requires 0 <= i < |lines| => HighlightLine(lines[i], i + 1, issues))
  }

  /** The analysis view: the text itself when there is no result; otherwise
      the text split on newlines, each line marked for the first issue on
      it, joined again. */
  function HighlightPipeline(text: string, results: Option<EvaluationResult>): (out: string)
    ensures results.None? ==> out == text
  {
    if results.None? then text
    else Join(HighlightLines(Split(text, '\n'), results.value.issues), '\n')
  }

  lemma WrapHasNoNewline(cls: string, line: string)
    requires '\n' !in cls && '\n' !in line
    ensures '\n' !in Wrap(cls, line)
  {
  }

  /** With a result, the view has as many lines as the text; a line no issue
      points at is unchanged, and a line an issue points at is that line
      wrapped in a span whose class is `highlight-warning` when the first
      issue on it is a warning and `highlight-info` otherwise. */
  lemma HighlightKeepsLines(text: string, result: EvaluationResult)
    ensures var ins := Split(text, '\n');
      var outs := Split(HighlightPipeline(text, Some(result)), '\n');
      |outs| == |ins| &&
      forall i :: 0 <= i < |ins| ==>
        (IssueForLine(result.issues, i + 1).None? ==> outs[i] == ins[i]) &&
        (IssueForLine(result.issues, i + 1).Some? ==>
          outs[i] == Wrap(HighlightClass(IssueForLine(result.issues, i + 1).value.kind), ins[i]) &&
          (IssueForLine(result.issues, i + 1).value.kind == Warning <==>
           HighlightClass(IssueForLine(result.issues, i + 1).value.kind) == "highlight-warning"))
  {
    var ins := Split(text, '\n');
    var lines := HighlightLines(ins, result.issues);
    forall i | 0 <= i < |lines| ensures '\n' !in lines[i] {
      match IssueForLine(result.issues, i + 1)
      case None =>
      case Some(issue) =>
        WrapHasNoNewline(HighlightClass(issue.kind), ins[i]);
    }
    SplitJoin(lines, '\n');
  }

  /** The fixed result marks line 3 as a warning and line 5 as information,
      and no other line. */
  lemma FixedEvaluationLines(n: int)
    ensures IssueForLine(FixedEvaluation.issues, n).Some? <==> n == 3 || n == 5
    ensures n == 3 ==> HighlightClass(IssueForLine(FixedEvaluation.issues, n).value.kind) == "highlight-warning"
    ensures n == 5 ==> HighlightClass(IssueForLine(FixedEvaluation.issues, n).value.kind) == "highlight-info"
  {
  }

  // ---------------------------------------------------------------------
  // The panel
  // ---------------------------------------------------------------------

  class PipelineEvaluator {
    var pipelineDefinition: string
    var evaluationResults: Option<EvaluationResult>
    var isEvaluating: bool
    var evaluationProgress: int
    var activeTab: EvaluatorTab
    /** Whether the progress interval is live. */
    var progressTicking: bool
    /** Whether the delayed delivery of the result is pending. */
    var resultScheduled: bool
    /** Ticks of the progress interval since the evaluation started. */
    ghost var ticks: nat

    /** Progress is a multiple of 5 in 0..100; while the interval is live it
        is 5 per tick so far and below 100; the delivery is pending only at
        100, after exactly 20 ticks; during an evaluation there is no result,
        and the only result ever held is the fixed one. */
    ghost predicate Valid()
      reads this
    {
      0 <= evaluationProgress <= 100 && evaluationProgress % ProgressStep == 0 &&
      (progressTicking ==>
        isEvaluating && !resultScheduled && evaluationProgress < 100 &&
        evaluationProgress == ProgressStep * ticks) &&
      (resultScheduled ==> isEvaluating && evaluationProgress == 100 && ticks == 20) &&
      (isEvaluating ==> (progressTicking || resultScheduled) && evaluationResults.None?) &&
      (evaluationResults.Some? ==> evaluationResults.value == FixedEvaluation)
    }

    constructor ()
      ensures Valid()
      ensures pipelineDefinition == SamplePipelineDefinition && evaluationResults == None
      ensures !isEvaluating && evaluationProgress == 0 && activeTab == PipelineTab
      ensures !progressTicking && !resultScheduled
    {
      pipelineDefinition := SamplePipelineDefinition;
      evaluationResults := None;
      isEvaluating := false;
      evaluationProgress := 0;
      activeTab := PipelineTab;
      progressTicking := false;
      resultScheduled := false;
      ticks := 0;
    }

    /** The "Evaluate Pipeline" button is enabled: no evaluation is running
        and the text holds a character that is not white space. */
    predicate EvaluateEnabled()
      reads this
      ensures EvaluateEnabled() <==>
        !isEvaluating &&
        exists i :: 0 <= i < |pipelineDefinition| && !IsJsWhitespace(pipelineDefinition[i])
    {
      !(isEvaluating || Trim(pipelineDefinition) == "")
    }

    /** The text area's change handler. */
    method SetPipelineDefinition(text: string)
      requires Valid()
      modifies this
      ensures Valid() && pipelineDefinition == text
      ensures evaluationResults == old(evaluationResults) && isEvaluating == old(isEvaluating)
      ensures evaluationProgress == old(evaluationProgress) && activeTab == old(activeTab)
      ensures progressTicking == old(progressTicking) && resultScheduled == old(resultScheduled)
    {
      pipelineDefinition := text;
    }

    /** Switching tabs; the results tab is disabled while there is neither a
        result nor a running evaluation. */
    method SelectTab(tab: EvaluatorTab)
      requires Valid()
      requires tab == ResultsTab ==> evaluationResults.Some? || isEvaluating
      modifies this`activeTab
      ensures Valid() && activeTab == tab
    {
      activeTab := tab;
    }

    /** Clears the result, sets progress to 0 and shows the text tab. */
    method ResetEvaluation()
      requires Valid() && !isEvaluating
      modifies this
      ensures Valid()
      ensures evaluationResults == None && evaluationProgress == 0 && activeTab == PipelineTab
      ensures pipelineDefinition == old(pipelineDefinition) && !isEvaluating
      ensures progressTicking == old(progressTicking) && resultScheduled == old(resultScheduled)
    {
      evaluationResults := None;
      evaluationProgress := 0;
      activeTab := PipelineTab;
    }

    /** Starts an evaluation: reset, then evaluating at progress 0 with the
        progress interval live. Its button is offered only when
        `EvaluateEnabled()`; the handler itself needs only that no evaluation
        is running. */
    method RunEvaluation()
      requires Valid() && !isEvaluating
      modifies this
      ensures Valid()
      ensures isEvaluating && evaluationProgress == 0 && evaluationResults == None
      ensures activeTab == PipelineTab && pipelineDefinition == old(pipelineDefinition)
      ensures progressTicking && !resultScheduled && ticks == 0
    {
      ResetEvaluation();
      isEvaluating := true;
      evaluationProgress := 0;
      progressTicking := true;
      ticks := 0;
    }

    /** The progress interval fires: progress goes up by 5; at the first value
        of at least 100, which is the 20th tick, the interval is cleared and
        the delivery of the result is scheduled. */
    method Tick()
      requires Valid() && progressTicking
      modifies this
      ensures Valid()
      ensures evaluationProgress == old(evaluationProgress) + ProgressStep && ticks == old(ticks) + 1
      ensures progressTicking <==> evaluationProgress < 100
      ensures resultScheduled <==> evaluationProgress >= 100
      ensures !progressTicking <==> ticks == 20
      ensures isEvaluating && evaluationResults == old(evaluationResults)
      ensures activeTab == old(activeTab) && pipelineDefinition == old(pipelineDefinition)
    {
      var newProgress := evaluationProgress + ProgressStep;
      if newProgress >= 100 {
        progressTicking := false;
        resultScheduled := true;
      }
      evaluationProgress := newProgress;
      ticks := ticks + 1;
    }

    /** The delayed delivery: whatever the text, the result is the fixed one
        (valid, score 87, a warning on line 3, information on line 5, three
        suggestions); the evaluation is over and the results tab is shown. */
    method DeliverResult()
      requires Valid() && resultScheduled
      modifies this
      ensures Valid()
      ensures evaluationResults == Some(FixedEvaluation)
      ensures evaluationResults.value.valid && evaluationResults.value.score == 87
      ensures |evaluationResults.value.issues| == 2 && |evaluationResults.value.suggestions| == 3
      ensures !isEvaluating && activeTab == ResultsTab && evaluationProgress == 100
      ensures !progressTicking && !resultScheduled
      ensures pipelineDefinition == old(pipelineDefinition)
    {
      evaluationResults := Some(FixedEvaluation);
      isEvaluating := false;
      activeTab := ResultsTab;
      resultScheduled := false;
    }

    /** The analysis view of the current text and result. */
    function AnalysisView(): (out: string)
      reads this
      ensures evaluationResults.None? ==> out == pipelineDefinition
    {
      HighlightPipeline(pipelineDefinition, evaluationResults)
    }
  }
}

=== FILE: pipeline_visualizer.dfy ===
/** The pipeline visualizer: a fixed six-element pipeline drawn as a row of
    boxes joined by arrows, and a "running" animation that highlights one
    element after another, round and round, until it is stopped. */
module VisualizerPanel {
  import opened Types

  const SamplePipeline := Pipeline(
    "Video Processing Pipeline",
    [ PipelineElement("source", "v4l2src", map["device" := "/dev/video0"]),
      PipelineElement("convert", "videoconvert", map[]),
      PipelineElement("scale", "videoscale", map[]),
      PipelineElement("encode", "x264enc", map["tune" := "zerolatency"]),
      PipelineElement("mux", "mp4mux", map[]),
      PipelineElement("sink", "filesink", map["location" := "output.mp4"]) ],
    [ PipelineLink("source", "convert"),
      PipelineLink("convert", "scale"),
      PipelineLink("scale", "encode"),
      PipelineLink("encode", "mux"),
      PipelineLink("mux", "sink") ])

  /** The links chain the elements in order: n - 1 links for n elements,
      link i going from element i to element i + 1, and no id repeated, so
      the graph is a simple path. */
  predicate IsSimplePath(p: Pipeline)
  {
    |p.elements| >= 1 && |p.links| == |p.elements| - 1 &&
    (forall i :: 0 <= i < |p.links| ==> p.links[i] == PipelineLink(p.elements[i].id, p.elements[i + 1].id)) &&
    (forall i, j :: 0 <= i < j < |p.elements| ==> p.elements[i].id != p.elements[j].id)
  }

  /** The links of the sample pipeline chain its six elements in order.
      The constant is passed in as `p` so that it is not unfolded in every proof step. */
  lemma SamplePipelineChained(p: Pipeline)
    requires p == SamplePipeline
    ensures |p.elements| == 6 && |p.links| == 5
    ensures forall i :: 0 <= i < |p.links| ==> p.links[i] == PipelineLink(p.elements[i].id, p.elements[i + 1].id)
  {
  }

  /** No two elements of the sample pipeline share an id.
      The constant is passed in as `p` so that it is not unfolded in every proof step. */
  lemma SamplePipelineDistinctIds(p: Pipeline)
    requires p == SamplePipeline
    ensures forall i, j :: 0 <= i < j < |p.elements| ==> p.elements[i].id != p.elements[j].id
  {
    var ids := ["source", "convert", "scale", "encode", "mux", "sink"];
    assert forall i :: 0 <= i < 6 ==> p.elements[i].id == ids[i];
    // the ids are told apart by their length and first letter
    assert forall i :: 0 <= i < 6 ==> |ids[i]| >= 3;
    assert forall i, j :: 0 <= i < j < 6 ==> |ids[i]| != |ids[j]| || ids[i][0] != ids[j][0];
  }

  /** The sample pipeline is a simple path of six elements.
      The constant is passed in as `p` so that it is not unfolded in every proof step. */
  lemma SamplePipelineIsSimplePath(p: Pipeline)
    requires p == SamplePipeline
    ensures IsSimplePath(p) && |p.elements| == 6
  {
    SamplePipelineChained(p);
    SamplePipelineDistinctIds(p);
  }

  /** The interval's updater: from no active element to the first, and from
      element i to element (i + 1) mod n; the result is always an element. */
  function NextActive(prev: Option<nat>, n: nat): (next: Option<nat>)
    requires n > 0
    ensures next.Some? && next.value < n
  {
    if prev.None? then Some(0) else Some((prev.value + 1) % n)
  }

  /** The active element after `k` ticks since the animation started. */
  function ActiveAfter(k: nat, n: nat): Option<nat>
    requires n > 0
  {
    if k == 0 then None else NextActive(ActiveAfter(k - 1, n), n)
  }

  lemma {:induction false} MulBound(d: int, n: int)
    requires n > 0
    ensures d >= 1 ==> d * n >= n
    ensures d <= -1 ==> d * n <= -n
    decreases if d >= 0 then d else -d
  {
    if d > 1 {
      MulBound(d - 1, n);
      assert d * n == (d - 1) * n + n;
    } else if d < -1 {
      MulBound(d + 1, n);
      assert d * n == (d + 1) * n - n;
    }
  }

  /** Quotient and remainder are unique. */
  lemma DivModUnique(x: int, n: int, q: int, r: int)
    requires n > 0 && 0 <= r < n && x == q * n + r
    ensures x % n == r && x / n == q
  {
    var q', r' := x / n, x % n;
    assert x == q' * n + r';
    assert (q - q') * n == r' - r;
    MulBound(q - q', n);
  }

  lemma ModSucc(a: nat, n: nat)
    requires n > 0
    ensures (a % n + 1) % n == (a + 1) % n
  {
    var q, r := a / n, a % n;
    assert a == q * n + r;
    if r + 1 == n {
      DivModUnique(a + 1, n, q + 1, 0);
      DivModUnique(n, n, 1, 0);
    } else {
      DivModUnique(a + 1, n, q, r + 1);
      DivModUnique(r + 1, n, 0, r + 1);
    }
  }

  lemma ModShift(m: nat, n: nat)
    requires n > 0
    ensures (m + n) % n == m % n
  {
    var q, r := m / n, m % n;
    DivModUnique(m, n, q, r);
    assert m + n == (q + 1) * n + r;
    DivModUnique(m + n, n, q + 1, r);
  }

  /** After k >= 1 ticks the active element is (k - 1) mod n; before the
      first tick there is none. */
  lemma {:induction false} ActiveAfterTicks(k: nat, n: nat)
    requires n > 0
    ensures ActiveAfter(k, n) == if k == 0 then None else Some((k - 1) % n)
  {
    if k > 1 {
      ActiveAfterTicks(k - 1, n);
      ModSucc(k - 2, n);
    }
  }

  /** The animation has no end state: n ticks later the same element is
      active again, and every tick yields an element. */
  lemma ActiveCycles(k: nat, n: nat)
    requires n > 0 && k >= 1
    ensures ActiveAfter(k + n, n) == ActiveAfter(k, n)
    ensures ActiveAfter(k, n).Some?
  {
    ActiveAfterTicks(k, n);
    ActiveAfterTicks(k + n, n);
    ModShift(k - 1, n);
  }

  /** An arrow follows element `index` unless it is the last one. */
  predicate ShowConnector(index: int, n: int)
  {
    index < n - 1
  }

  /** The moving dot is drawn on the arrow after `index` while running, when
      `index` is the active element. */
  predicate ShowDot(index: int, n: int, running: bool, active: Option<nat>)
  {
    ShowConnector(index, n) && running && active.Some? && index == active.value
  }

  /** The arrows that carry a dot: at most one, never after the last
      element, none while stopped, and exactly the active element's arrow
      when that element is not the last. */
  function DotPositions(n: nat, running: bool, active: Option<nat>): (r: set<int>)
    ensures |r| <= 1
    ensures n - 1 !in r
    ensures !running ==> r == {}
    ensures forall i :: i in r <==> 0 <= i < n - 1 && running && active == Some(i)
  {
    var r := set i | 0 <= i < n && ShowDot(i, n, running, active);
    assert |r| <= 1 by {
      if running && active.Some? && active.value < n - 1 {
        assert r == {active.value as int};
      } else {
        assert r == {};
      }
    }
    r
  }

  class PipelineVisualizer {
    const pipeline: Pipeline
    var isRunning: bool
    var activeElement: Option<nat>
    /** Ticks since the animation was last started. */
    ghost var ticks: nat

    /** The pipeline is non-empty; a stopped animation has no active element,
        a running one is at the element its tick count leads to. */
    ghost predicate Valid()
      reads this
    {
      |pipeline.elements| > 0 &&
      (!isRunning ==> activeElement == None) &&
      (isRunning ==> activeElement == ActiveAfter(ticks, |pipeline.elements|))
    }

    constructor ()
      ensures Valid() && pipeline == SamplePipeline
      ensures !isRunning && activeElement == None
    {
      pipeline := SamplePipeline;
      isRunning := false;
      activeElement := None;
      ticks := 0;
    }

    /** The run/stop button, together with the effect it triggers: the
        running flag flips, and both starting and stopping leave no active
        element. */
    method TogglePipeline()
      requires Valid()
      modifies this
      ensures Valid()
      ensures isRunning == !old(isRunning) && activeElement == None && ticks == 0
    {
      var wasRunning := isRunning;
      isRunning := !wasRunning;
      if !wasRunning {
        activeElement := None;
      }
      // the effect on `isRunning`: a stopped animation clears the element
      if !isRunning {
        activeElement := None;
      }
      ticks := 0;
    }

    /** The animation interval fires (it is live only while running): the
        active element moves on by one, cyclically, and after the k-th tick
        it is element (k - 1) mod n. */
    method Tick()
      requires Valid() && isRunning
      modifies this
      ensures Valid() && isRunning && ticks == old(ticks) + 1
      ensures activeElement == NextActive(old(activeElement), |pipeline.elements|)
      ensures activeElement == Some((ticks - 1) % |pipeline.elements|)
    {
      activeElement := NextActive(activeElement, |pipeline.elements|);
      ticks := ticks + 1;
      ActiveAfterTicks(ticks, |pipeline.elements|);
    }

    /** The arrows that currently carry the moving dot. */
    function Dots(): (r: set<int>)
      reads this
      requires Valid()
      ensures |r| <= 1 && |pipeline.elements| - 1 !in r
      ensures !isRunning ==> r == {}
    {
      DotPositions(|pipeline.elements|, isRunning, activeElement)
    }
  }
}

=== FILE: types.dfy ===
/** Value types shared by the dashboard panels: the shapes of the pipeline
    description, of an evaluation result and of an evaluation agent. */
module Types {

  /** A value that may be absent; stands for JavaScript's `null`/`undefined`. */
  datatype Option<+T> = None | Some(value: T)

  /** The four states an agent can be in; no operation ever produces `Failed`. */
  datatype AgentStatus = Pending | InProgress | Completed | Failed

  /** The closed set of issue kinds an evaluation can report. */
  datatype IssueType = Error | Warning | Info

  /** One finding of an evaluation, optionally tied to a 1-based line. */
  datatype EvaluationIssue = EvaluationIssue(kind: IssueType, message: string, line: Option<int>)

  datatype EvaluationResult = EvaluationResult(
    valid: bool,
    score: int,
    issues: seq<EvaluationIssue>,
    suggestions: seq<string>)

  /** An element of the pipeline graph; property values are all strings in the sample. */
  datatype PipelineElement = PipelineElement(id: string, elementType: string, properties: map<string, string>)

  datatype PipelineLink = PipelineLink(from: string, to: string)

  datatype Pipeline = Pipeline(name: string, elements: seq<PipelineElement>, links: seq<PipelineLink>)

  /** An evaluation agent as the agent panel keeps it. Unlike the declared
      interface it carries `progress` (0..100), which the panel reads and writes. */
  datatype Agent = Agent(
    id: int,
    name: string,
    description: string,
    status: AgentStatus,
    progress: int,
    score: Option<int>,
    feedback: Option<string>)
}
